=== FILE: README.md ===
# kbr_char spell construction, modelled in Dafny

kbr_char builds tabletop spells out of reusable parts. Each part has a name,
an integer `x` and a small arithmetic formula over the placeholder `x`. Its
difficulty (`dc`) comes from substituting `x` into the formula, evaluating the
text with a restricted `ast.NodeVisitor` called `Calc`, and truncating the
result with `int()`. A spell's `dc` is the sum of its parts' `dc`.

The repository has two generations of this design:

- The component revisions, kbr_char/magic.py and kbr_char/green.py.
  - `SpellComponentCollection` loads the four categories Elements, Range,
    Shape and Modifiers, and can be searched by class and by
    case-insensitive name.
  - `Spell` holds components.
  - `SpellBook` keeps spells unique by name.
- The quality revisions, kbr_char/spells.py and spells.py.
  - `SpellFactory` turns every category of a configuration into `Quality`
    objects.
  - It hands out spells and finds a quality by name through `__getattr__`.
  - `Spell.add_quality` may overwrite the shared quality's `x` in place.

The model has one module per concern:

| module | file | models |
|---|---|---|
| `Py` | python.dfy | Python behaviour the code relies on: `str(int)`, `str.replace`, `str.lower`, `sum`, list comprehensions, exceptions, and the input as a dictionary of lists of records |
| `Calc` | calc.dfy | the `Calc` visitor, its two kinds of operator table (with and without `Pow`), and `int()` |
| `CalcVectors` | calc_vectors.dfy | the formula vectors of tests/test_green.py |
| `Difficulty` | difficulty.dfy | substituting `x` into a formula and evaluating it, for components and for qualities |
| `Components` | components.dfy | components, the collection, and component spells |
| `SpellBooks` | spellbook.dfy | `SpellBook` |
| `Qualities` | qualities.dfy | `Quality`, quality spells and `get_qualities` |
| `SpellFactory` | factory.dfy | `SpellFactory` |

Python's object identity is modelled with an arena. The collection, or the
factory's quality list, is a sequence, and a spell holds positions into it.
So a quality shared by several spells, and changed through one of them, is
one entry. A method such as `Spell.dc` that writes a field (`_dc`) returns the
updated object as a second result.

## Model

| member | source | states |
|---|---|---|
| Calc.Apply | kbr_char/magic.py:17-32 | a `None` operand gives TypeError and nothing else does; a result is always a number; the only other errors are division by zero and a power outside the model |
| Calc.PowValue | kbr_char/spells.py:13-20 | `operator.pow` raises ZeroDivisionError exactly for a zero base with a negative exponent, integral or not; otherwise a natural exponent gives the exact power, a negative integral one its reciprocal, and only a fractional exponent is outside the model |
| Calc.Visit | kbr_char/magic.py:29-38 | a visit of a tree whose constants are numbers raises only KeyError, TypeError, ZeroDivisionError or an unmodelled power |
| Calc.Evaluate | kbr_char/magic.py:40-44 | `tree.body[0]` raises IndexError exactly when the parsed text holds no statement |
| Calc.Truncate | kbr_char/magic.py:58 | `int()` of a number truncates toward zero: it lies within one of the number, on the side of zero |
| Calc.Int | kbr_char/magic.py:58 | `int(None)` raises TypeError and nothing else fails; an integral value comes back unchanged |
| Calc.EvaluateInt | kbr_char/magic.py:40-58 | `int(Calc.evaluate(...))` of a tree whose constants are numbers raises only the visitor's errors or IndexError |
| Calc.NumberOnlyFromArithmetic | kbr_char/magic.py:29-38 | only a tree of constants and table operators under expression statements evaluates to a number |
| Calc.ArithmeticEvaluates | kbr_char/magic.py:29-38 | such a tree never gives `None`, KeyError or TypeError; only a division or a power can fail |
| Calc.KeyErrorIffMissing | kbr_char/magic.py:17-32 | once both operands are visited, a binary operator raises KeyError exactly when the table lacks its class, even if an operand is `None` |
| Calc.OnlyBinaryEntriesMatter | kbr_char/magic.py:19-27 | two tables with the same binary entries evaluate every tree alike |
| Calc.InvertUnreachable | kbr_char/magic.py:24 | the `ast.Invert` entry never affects any evaluation |
| Calc.UnaryMinusFails | kbr_char/magic.py:29-38 | with no `UnaryOp` handler, `-n` yields `None`, so `int()` of it raises TypeError, and so does any table operator applied to it |
| Calc.NameHasNoValue | kbr_char/magic.py:29-38 | a bare name yields `None`, and `int()` of it raises TypeError |
| Calc.PowByRevision | kbr_char/green.py:15-22 | a `**` whose operands evaluate raises KeyError in the revisions without `Pow`; the revisions with `Pow` compute the power |
| Calc.TablesAgreeWithoutPow | spells.py:12-18 | the two kinds of table give the same result on every tree that has no `**` |
| CalcVectors.IntegerVectors | tests/test_green.py:141-147 | the six additive and multiplicative vectors give 3, 12, 1, -7, 25 and 3000 under every table with the four basic operators |
| CalcVectors.DivisionVectors | tests/test_green.py:148-149 | `19/5` and `1000/20/2` give 3 and 25 after truncation |
| CalcVectors.VectorsWithPow | tests/test_green.py:150-151 | with `Pow` in the table, `2**3` gives 8 and `10-7+(3*5)/(10**2)` gives 3 |
| CalcVectors.VectorsWithoutPow | kbr_char/green.py:15-21 | without `Pow` in the table, both `**` vectors raise KeyError |
| Py.IntToStrRoundTrip | kbr_char/magic.py:57 | `str(x)` is decimal text that reads back as `x` |
| Py.ReplaceKeeps | kbr_char/magic.py:57 | after `replace`, every character comes from the replacement or is an original one other than the pattern; the pattern survives only if the replacement holds it; with no occurrence the text is unchanged |
| Py.ReplaceIsSplitJoin | kbr_char/magic.py:57 | `replace` is the same as splitting at the pattern and joining with the replacement |
| Py.GatherSnocSum | kbr_char/magic.py:140-145 | appending one more item to a summed list adds that item's value to the sum, and an exception from either side is the one raised |
| Py.GatherReplaceShift | kbr_char/spells.py:106-127 | replacing one shared item moves the sum by the item's change, once for each reference to it |
| Difficulty.SubstituteRemovesPlaceholder | kbr_char/magic.py:57 | no `x` is left after substitution; a formula without `x` is unchanged; a negative `x` brings a minus sign into the text |
| Difficulty.SubstituteLength | kbr_char/magic.py:57 | the substituted text is the formula's pieces between the `x` characters joined by `str(x)`, so every `x` is replaced by the whole decimal text of the value and grows the text by its length less one |
| Difficulty.ComponentDcErrors | kbr_char/magic.py:55-58 | once the text parses to a tree whose constants are numbers, a component's `dc` raises only the evaluator's errors or IndexError |
| Difficulty.ConstantFormula | kbr_char/magic.py:55-61 | a formula without `x` gives the same `dc` whatever `customize` sets |
| Difficulty.IdentityFormula | kbr_char/green.py:50-53 | the formula `x` gives `dc == x` for every natural `x` |
| Difficulty.NegativeIdentityFails | kbr_char/green.py:50-53 | the formula `x` with a negative `x` raises TypeError, because the text `-n` has no value |
| Difficulty.FalsyFormula | spells.py:60-66 | a quality whose formula is None or empty has `dc == x`, and nothing is parsed |
| Difficulty.DefaultQualityFormula | kbr_char/spells.py:70-82 | the default formula `x` gives the same `dc` as having no formula when `x` is not negative, and TypeError when it is |
| Difficulty.CustomizedRangeExample | kbr_char/magic.py:55-61 | the range formula `x/2-10` gives 40 at `x = 100` and 90 after `customize(200)` |
| Components.Customize | kbr_char/magic.py:60-61 | `customize` sets `x` and leaves every other field unchanged |
| Components.CustomizeAt | kbr_char/magic.py:60-61 | customizing one entry of the collection leaves every other entry unchanged |
| Components.FromRecord | kbr_char/magic.py:100-103 | an unknown key or a missing `name`, `x` or `formula` is TypeError, and TypeError is the only error; a built component carries the record's `name`, `x` and `formula`, its `units` and `desc` or None where they are absent or null, and the category's class |
| Components.FromRecords | kbr_char/magic.py:100-103 | a category builds exactly when every record builds; the result is the records' components, in order |
| Components.Group | kbr_char/magic.py:100-103 | a missing category key is KeyError; every component built is of the category's class |
| Components.Build | kbr_char/green.py:94-100 | the collection builds exactly when all four categories are present and well-formed; a missing category key raises KeyError once the categories read before it have loaded; the only errors are KeyError and TypeError |
| Components.AppendEach | kbr_char/magic.py:105-116 | the appending loop adds the items to the end, in order |
| Components.BuildByAppending | kbr_char/magic.py:99-116 | kbr_char/magic.py's appending loops give the same collection and the same error as kbr_char/green.py's concatenation |
| Components.BuildOrdersCategories | kbr_char/green.py:94-100 | the collection holds the Elements, then the Range, then the Shape, then the Modifiers components, and nothing of the base class |
| Components.BuildKeepsGroups | kbr_char/green.py:94-100 | selecting the collection by class gives back exactly that category's components, in order |
| Components.Get | kbr_char/magic.py:118-124 | `get` returns the first component of the class whose name matches ignoring case, and IndexError exactly when there is none |
| Components.ByType | kbr_char/magic.py:126-128 | `get_by_type` gives, in order, exactly the components that are instances of the class |
| Components.ByName | kbr_char/magic.py:130-132 | `get_by_name` gives, in order, exactly the components whose name matches ignoring case |
| Components.GetIgnoresCase | kbr_char/green.py:102-110 | names that differ only in case find the same component |
| Components.GetBaseIsFirstByName | kbr_char/magic.py:118-132 | `get` with the base class is the first result of `get_by_name`, and IndexError exactly when that list is empty |
| Components.AddComponent | kbr_char/magic.py:140-141 | `add_component` appends the component and keeps the earlier ones |
| Components.SpellDc | kbr_char/magic.py:143-145 | a spell's `dc` succeeds exactly when every held component's `dc` does; otherwise it raises the exception of the first component that fails |
| Components.NewSpellDc | kbr_char/magic.py:143-145 | a new spell has `dc == 0` |
| Components.AddComponentDc | kbr_char/magic.py:140-145 | after `add_component`, the spell's `dc` is the old one plus the component's, and an error from either is raised |
| Components.CustomizeElsewhere | kbr_char/magic.py:143-145 | customizing a component that the spell does not hold leaves the spell's `dc` unchanged |
| Components.CustomizeShared | kbr_char/magic.py:143-145 | customizing a held component moves the spell's `dc` by the component's change, once for each time it is held |
| SpellBooks.SpellList | kbr_char/magic.py:154-155 | the spell names, in order |
| SpellBooks.AddSpell | kbr_char/magic.py:160-163 | ValueError exactly when the name is listed already; otherwise the spell goes at the end and nothing else changes |
| SpellBooks.Named | kbr_char/magic.py:166-170 | exactly the positions of the spells with the name, increasing |
| SpellBooks.RemoveSpell | kbr_char/magic.py:165-172 | only a name held by exactly one spell is removed, at its position; otherwise the book is unchanged |
| SpellBooks.GetSpell | kbr_char/green.py:161-163 | the first spell with the name, and IndexError exactly when none has it |
| SpellBooks.LoadComponents | kbr_char/magic.py:178-179 | a collection is attached exactly when it builds; otherwise the collection's error is raised |
| SpellBooks.AddSpellKeepsNamesUnique | kbr_char/magic.py:160-163 | a successful `add_spell` keeps the names unique |
| SpellBooks.AddSpellsSucceedIffDistinct | kbr_char/magic.py:160-163 | adding spells in turn succeeds exactly when every name, old and new, is distinct, and then the book holds the old spells followed by the new ones |
| SpellBooks.FromEmptyBook | kbr_char/green.py:147-150 | an empty book accepts a sequence of spells exactly when their names are distinct, and it never holds two spells with one name |
| SpellBooks.RemoveUndoesAdd | kbr_char/magic.py:160-172 | removing a spell just added under a new name gives the book back |
| SpellBooks.GetFindsAdded | kbr_char/magic.py:160-176 | `get_spell` finds a spell just added under a new name |
| SpellBooks.DuplicateAndRemoveExample | tests/test_green.py:127-136 | adding a spell twice raises ValueError; adding it once and then removing it leaves the name list empty |
| Qualities.FormulaField | kbr_char/spells.py:70 | an absent `formula` is the default `x`; a null one is None; otherwise it is the record's text |
| Qualities.FromRecord | kbr_char/spells.py:212 | TypeError for an unknown key, for a record that itself names `catagory`, or for a missing `name` or `x`; otherwise the quality carries the record's `name` and `x`, its formula (the default "x" when absent, None when null), its `spell_name`, `desc`, `sub` and `units` or None where they are absent or null, and the category key |
| Qualities.FromToRecord | kbr_char/spells.py:44-70 | every quality with a category is rebuilt exactly from its record |
| Qualities.FromRecords | kbr_char/spells.py:211-212 | a category builds exactly when every record builds; the result is the records' qualities, in order |
| Qualities.LoadRecords | kbr_char/spells.py:209-213 | every loaded quality is tagged with a key of the configuration; the only error is TypeError |
| Qualities.LoadByCategory | kbr_char/spells.py:209-213 | with distinct keys, the loaded qualities of a category are exactly that category's records, in order |
| Qualities.SpellDc | kbr_char/spells.py:106-115 | `Spell.dc` is the sum of the held qualities' `dc`, stored in `_dc`; on an exception, `_dc` holds the sum of the qualities before the failing one |
| Qualities.Accumulate | kbr_char/spells.py:112-115 | the loop computes the sum; the first error stops it, with the sum so far kept |
| Qualities.AddQuality | kbr_char/spells.py:117-127 | a truthy value overwrites only the shared quality's `x`; the reference is appended either way |
| Qualities.AddQualityDc | spells.py:76-87 | when the value is falsy or the spell does not yet hold the quality, the spell's `dc` after `add_quality` is the old one plus the added quality's updated `dc`, and an exception from either is the one raised |
| Qualities.AddHeldQualityDc | kbr_char/spells.py:106-127 | when the spell may already hold the quality, the new `dc` is the old one, plus the quality's change in `dc` once for each reference it already had, plus its updated `dc` |
| Qualities.SharedQualityShift | kbr_char/spells.py:124-127 | overwriting a shared quality's `x` moves the `dc` of every spell that holds it, by the quality's change, once for each time it is held |
| Qualities.GetQualities | kbr_char/spells.py:154-160 | a query by name, else by category, else everything, returns only held qualities that satisfy the query |
| Qualities.GetQualitiesComplete | kbr_char/spells.py:154-160 | each result satisfies the query, and each held quality that satisfies it is returned |
| Qualities.GetAfterAdd | kbr_char/spells.py:117-160 | after `add_quality`, a query returns what it returned before, followed by the added quality when the query selects it |
| SpellFactory.AppendRecords | kbr_char/spells.py:211-212 | the inner loop appends a category's qualities to the results, or raises TypeError |
| SpellFactory.LoadQualities | kbr_char/spells.py:203-213 | the loaded list is every category's qualities, in order; `order` gains every key; after a bad record it has gained the keys up to and including the failing category |
| SpellFactory.LoadRecordsAppend | kbr_char/spells.py:209-213 | loading two configurations one after the other is the same as loading their concatenation |
| SpellFactory.NewFactory | kbr_char/spells.py:170-176 | construction succeeds exactly when loading does, and only TypeError is raised; the factory then holds the loaded qualities and the `spells` it was given, and (kbr_char/spells.py only) the given `order` followed by the configuration's keys |
| SpellFactory.GetAttr | kbr_char/spells.py:196-201 | `factory.<item>` is the first quality with that name, and AttributeError exactly when none has it |
| SpellFactory.CreateSpell | kbr_char/spells.py:215-219 | `create_spell` appends a new empty spell and changes neither the qualities nor `order` |
| SpellFactory.AddQualityTo | kbr_char/spells.py:117-127 | `add_quality` on one of the factory's spells changes that spell and the shared quality list, and no other spell |
| SpellFactory.OperationsKeepValid | kbr_char/spells.py:215-219 | creating spells and adding qualities keep every reference of every spell valid |
| SpellFactory.LookupStable | kbr_char/spells.py:196-201 | lookups by name find the same quality after spells are created or qualities added |
| SpellFactory.SameNamesSameLookup | spells.py:120-125 | lookup depends only on the names of the qualities, position by position |
| SpellFactory.LoadedContains | kbr_char/spells.py:209-213 | every record of a configuration that loads yields a loaded quality |
| SpellFactory.LookupAfterLoad | kbr_char/spells.py:196-213 | every quality named in a configuration that loads can be looked up by that name |

## Left out

- `ast.parse` is a parameter (`Calc.Parser`). Python's grammar is not modelled, so text-level results assume what the parser returns for that text.
- Floating point: numbers are exact reals. So `int()` after a true division can differ by one from Python's: `1/49*49` is 0.999... in floats and truncates to 0, while the model gives 1. A float that overflows (`2.0**5000`, or a huge integer divided) raises OverflowError in Python, which the model does not have. `operator.pow` with a fractional exponent and a non-zero base gives the model's `Unmodelled` error; Python would compute a float, or a complex number for a negative base.
- Calc.Visit: only real-valued constants are modelled. `visit_Constant` returns any constant, so in Python a complex (`2j`), string, bytes, `None` or `...` constant takes part in the arithmetic (`'a'+'b'`, `'7'*2`, `1+2j`); `int()` of a complex number raises TypeError, and `int()` of a string either parses it (`int('7')` is 7) or raises ValueError. The model has no such constants; a `True` or `False` constant is the number 1 or 0. The visitor also recurses once per nesting level, two Python frames each, so a formula of roughly 500 chained operators raises RecursionError (and a huge one MemoryError) in Python; the model has no recursion limit and evaluates it. The "raises only" statements of Calc.Visit, Calc.EvaluateInt and Difficulty.ComponentDcErrors leave out these two exceptions.
- Calc.EvaluateInt: for the same reason its error set leaves out the ValueError of `int()` on a string constant.
- Difficulty.ComponentDcErrors: for the same reason, a formula holding a string constant, which can raise ValueError in Python, is outside its statement.
- `load_qualities` given a JSON string (`json.loads`), `load_data` file reading, and `save`/`load` with pickle are file and text I/O, and are not modelled. The factory takes the decoded dictionary.
- `detailed_spell_list` returns the spell list as it is. `__repr__`, `__str__`, `process_desc` and `_return_desc` format text. In both spells.py and kbr_char/spells.py `process_desc` first evaluates `self.dc`, which can raise the formula's exception and rewrites `_dc` as Qualities.SpellDc does; kbr_char/spells.py then writes `_desc`. The text and the `_desc` write are not modelled.
- `Quality._formula` is a scratch copy of the substituted text. It has no effect on any result.
- `Spell._order` in kbr_char/spells.py is an alias of the factory's `order`. It is only read by `process_desc`, so the model keeps `order` on the factory alone.
- `SpellFactory.__getattr__` is only reached for names that are not real attributes. A quality named like a field of the factory (`spells`, `order`, ...) is shadowed in Python; the model looks up every name.
- `str.lower` is modelled for ASCII letters only.
- A record value of the wrong JSON type is a TypeError in the model, but the dataclasses store it unchecked. In Python many such records load and evaluate: a float `x` (`2.5` substitutes as "2.5"), a JSON `true` for `x` (the text "True" evaluates to 1), or a number for `desc`, `units` or `sub`. The model rejects all of them.
- The `__main__` usage blocks, and the test tests/test_spells.py:27-35 (Fireball `dc == 100`): the configuration file that test reads is not part of this model.
- kbr_char/green.py's `SpellBook` has no `components` field and no `load_components`. In the model that field stays None for it. tests/test_green.py:99-101 nevertheless calls `load_components` on that revision's `SpellBook`, which would raise AttributeError; the model gives the method only to kbr_char/magic.py's book.
- Spells in a `SpellBook` are held by value. Python stores the caller's `Spell` object, and `get_spell` returns that same object, so an `add_component` after `add_spell` changes the book's spell too; the model does not express this aliasing. The component positions in the book's spells are not tied to the collection that `load_components` attaches.
- Difficulty.ComponentDc and Difficulty.QualityDc: their contracts live in the lemmas about them (ComponentDcErrors, ConstantFormula, IdentityFormula, NegativeIdentityFails, FalsyFormula, DefaultQualityFormula), not on the functions.
- Components.Dc and Qualities.Dc: the `dc` properties of `SpellComponent` (kbr_char/magic.py:55-58) and `Quality` apply Difficulty.ComponentDc and Difficulty.QualityDc to the object's own formula and `x`, so the lemmas above state them. What a spell's sum does with them is stated by Components.SpellDc, NewSpellDc, AddComponentDc, CustomizeElsewhere and CustomizeShared, and by Qualities.SpellDc, AddQualityDc, AddHeldQualityDc and SharedQualityShift.
- SpellFactory.NewFactory: the factory keeps the caller's `spells` and `order` by value. In Python it stores the caller's lists themselves, so loading appends the keys to the caller's `order` list too, even when a later record raises. Spells passed in hold positions, which the model does not tie to the factory's freshly loaded qualities.
- SpellBooks.NewBook: only the default constructor arguments are modelled, a book with no spells and (kbr_char/magic.py) no collection. A caller can pass `spells=` holding two spells of one name, which the dataclass does not check; AddSpellKeepsNamesUnique therefore promises uniqueness only for books whose names were unique to begin with.
- Qualities.ToRecord: it states only which keys the record has. The values are stated by FromToRecord.

Behaviour of the code worth noting:

- Unary negation is not evaluated (Calc.UnaryMinusFails). `Calc` has no `visit_UnaryOp`, so `-n` yields `None`.
- `**` is evaluated only by the revisions whose table has `Pow`.

## Findings

| source | as written | input that shows it | evidently intended | confidence | as-written member | corrected member |
|---|---|---|---|---|---|---|
| kbr_char/green.py:15-21 | the operator table has no `ast.Pow` entry, yet tests/test_green.py:150-151 evaluate `**` with this revision's `Calc` and expect 8 and 3 | `Calc.evaluate("2**3")` raises KeyError | a `Pow` entry, as kbr_char/magic.py:25 has | not executed | CalcVectors.VectorsWithoutPow | CalcVectors.VectorsWithPow |

=== FILE: calc.dfy ===
/**
  The restricted formula evaluator `Calc`, an `ast.NodeVisitor` over the tree
  that `ast.parse` builds for a formula. Only three node classes have a
  handler: `Constant` yields its value, `Expr` yields its inner value, and
  `BinOp` evaluates its left then its right operand and applies the operator
  found in a fixed table, keyed by the operator node's class. Every other node
  goes to the visitor's default, which visits the node's children (so an
  exception inside them still escapes) and yields `None`.

  The four revisions of the code differ only in the table: two carry `Pow`,
  two do not. All four also list `Invert`, a unary operator class that a
  `BinOp` never carries.

  Numbers are exact reals: true division does not round, and `int()` truncates
  toward zero.
 */
module Calc {
  import opened Py

  /** The operator classes a Python `BinOp` node can carry. */
  datatype BinaryOperator =
    | Add | Sub | Mult | MatMult | Div | Mod | Pow
    | LShift | RShift | BitOr | BitXor | BitAnd | FloorDiv

  /** The operator classes a Python `UnaryOp` node can carry. */
  datatype UnaryOperator = UAdd | USub | Not | Invert

  /** A key of an operator table: the class of an operator node. */
  datatype OpKey = Binary(bop: BinaryOperator) | Unary(uop: UnaryOperator)

  /** The binary operators some table of the source maps to a function. */
  const Arithmetic: set<BinaryOperator> := {Add, Sub, Mult, Div, Pow}

  /** An operator table: which operator classes have an entry. Every binary
      entry in the source's tables is one of the arithmetic operators. */
  type OpTable = t: set<OpKey> | forall k | k in t :: k.Binary? ==> k.bop in Arithmetic
    witness {}

  /** The table of kbr_char/magic.py and kbr_char/spells.py. */
  const TableWithPow: OpTable :=
    {Binary(Add), Binary(Sub), Binary(Mult), Binary(Div), Unary(Invert), Binary(Pow)}

  /** The table of kbr_char/green.py and spells.py. */
  const TableWithoutPow: OpTable :=
    {Binary(Add), Binary(Sub), Binary(Mult), Binary(Div), Unary(Invert)}

  /** A table with entries for the four basic operators, as all four revisions have. */
  predicate HasBasicOps(table: OpTable) {
    Binary(Add) in table && Binary(Sub) in table && Binary(Mult) in table && Binary(Div) in table
  }

  /** The part of Python's expression tree the evaluator can meet. `Constant`
      is a real-valued constant (a `True` or `False` constant is the number 1
      or 0 to every operator and to `int()`); complex (`2j`), string, bytes,
      `None` and `...` constants are not part of this model. `Expr` is the expression-statement
      node; `Other` stands for every remaining node class (calls, comparisons,
      assignments, ...), given by its child nodes in field order. */
  datatype Node =
    | Constant(n: real)
    | Expr(value: Node)
    | BinOp(left: Node, op: BinaryOperator, right: Node)
    | UnaryOp(unary: UnaryOperator, operand: Node)
    | Name(id: string)
    | Other(children: seq<Node>)

  /** The `Module` node `ast.parse` returns. */
  datatype PyModule = PyModule(body: seq<Node>)

  /** `ast.parse`: text to a module, or SyntaxError. The parser itself is not
      modelled; every operation that needs it takes it as a parameter. */
  type Parser = string -> Result<PyModule>

  /** What a visit returns: `None` or a number. */
  datatype Value = NoValue | Num(v: real)

  /** `b ** n` for a natural exponent. */
  function Power(b: real, n: nat): (r: real)
    ensures b != 0.0 ==> r != 0.0
  {
    if n == 0 then 1.0 else b * Power(b, n - 1)
  }

  predicate IsIntegral(r: real) {
    r == r.Floor as real
  }

  /** `operator.pow` on numbers. A zero base with a negative exponent, integral
      or not, raises ZeroDivisionError as Python does; otherwise an integral
      exponent is computed exactly (a negative one divides) and a fractional
      exponent is outside the model. */
  function PowValue(a: real, b: real): (r: Result<real>)
    ensures r.Err? ==> r.error in {ZeroDivisionError, Unmodelled}
    ensures r.Err? && r.error == ZeroDivisionError <==> a == 0.0 && b < 0.0
    ensures r.Err? && r.error == Unmodelled <==> !IsIntegral(b) && !(a == 0.0 && b < 0.0)
    ensures IsIntegral(b) && 0.0 <= b ==> r == Ok(Power(a, b.Floor))
    ensures IsIntegral(b) && b < 0.0 && a != 0.0 ==> r == Ok(1.0 / Power(a, (-b).Floor))
  {
    if a == 0.0 && b < 0.0 then Err(ZeroDivisionError)
    else if !IsIntegral(b) then Err(Unmodelled)
    else if b >= 0.0 then Ok(Power(a, b.Floor))
    else Ok(1.0 / Power(a, (-b).Floor))
  }

  /** The table's function applied to two visit results. A `None` operand is a
      TypeError; true division by zero is a ZeroDivisionError. */
  function Apply(op: BinaryOperator, left: Value, right: Value): (r: Result<Value>)
    requires op in Arithmetic
    ensures r.Ok? ==> r.value.Num?
    ensures r.Err? ==> r.error in {TypeError, ZeroDivisionError, Unmodelled}
    ensures (left.NoValue? || right.NoValue?) <==> r == Err(TypeError)
  {
    if left.NoValue? || right.NoValue? then Err(TypeError)
    else
      var a, b := left.v, right.v;
      match op
      case Add => Ok(Num(a + b))
      case Sub => Ok(Num(a - b))
      case Mult => Ok(Num(a * b))
      case Div => if b == 0.0 then Err(ZeroDivisionError) else Ok(Num(a / b))
      case Pow => var p :- PowValue(a, b); Ok(Num(p))
  }

  /** The exceptions a visit can raise. */
  const VisitErrors: set<Error> := {KeyError, TypeError, ZeroDivisionError, Unmodelled}

  /** `Calc().visit(node)`. */
  function Visit(table: OpTable, node: Node): (r: Result<Value>)
    ensures r.Err? ==> r.error in VisitErrors
    decreases node
  {
    match node
    case Constant(n) => Ok(Num(n))
    case Expr(value) => Visit(table, value)
    case BinOp(l, op, r) =>
      var left :- Visit(table, l);
      var right :- Visit(table, r);
      if Binary(op) in table then Apply(op, left, right) else Err(KeyError)
    case UnaryOp(_, operand) =>
      var _ :- Visit(table, operand);
      Ok(NoValue)
    case Name(_) => Ok(NoValue)
    case Other(children) =>
      var _ :- VisitAll(table, children);
      Ok(NoValue)
  }

  /** `generic_visit`: visit the children in order, discarding their values. */
  function VisitAll(table: OpTable, nodes: seq<Node>): (r: Result<()>)
    ensures r.Err? ==> r.error in VisitErrors
    decreases nodes
  {
    if |nodes| == 0 then Ok(())
    else
      var _ :- Visit(table, nodes[0]);
      VisitAll(table, nodes[1..])
  }

  /** `Calc.evaluate` after parsing: visit the first statement of the module,
      an IndexError when the text held none. */
  function Evaluate(table: OpTable, m: PyModule): (r: Result<Value>)
    ensures |m.body| == 0 <==> r == Err(IndexError)
  {
    if |m.body| == 0 then Err(IndexError) else Visit(table, m.body[0])
  }

  /** `int(r)` for a real: truncation toward zero. */
  function Truncate(r: real): (i: int)
    ensures 0.0 <= r ==> i as real <= r < i as real + 1.0
    ensures r < 0.0 ==> i as real - 1.0 < r <= i as real
  {
    if r >= 0.0 then r.Floor else -((-r).Floor)
  }

  /** `int(v)` for a visit result: `int(None)` is a TypeError. */
  function Int(v: Value): (r: Result<int>)
    ensures r.Err? <==> v.NoValue?
    ensures r.Err? ==> r.error == TypeError
    ensures v.Num? && IsIntegral(v.v) ==> r == Ok(v.v.Floor)
  {
    match v
    case NoValue => Err(TypeError)
    case Num(n) => Ok(Truncate(n))
  }

  /** `int(Calc.evaluate(text))` once the text is parsed. */
  function EvaluateInt(table: OpTable, m: PyModule): (r: Result<int>)
    ensures r.Err? ==> r.error in VisitErrors + {IndexError}
  {
    var v :- Evaluate(table, m);
    Int(v)
  }

  // ---------------------------------------------------------------------------
  // Properties of the evaluator

  /** A tree of constants and table operators, possibly under expression
      statements: the only trees that can evaluate to a number. */
  predicate Arithmetical(table: OpTable, node: Node) {
    match node
    case Constant(_) => true
    case Expr(value) => Arithmetical(table, value)
    case BinOp(l, op, r) => Binary(op) in table && Arithmetical(table, l) && Arithmetical(table, r)
    case _ => false
  }

  /** A number comes only out of an arithmetical tree. */
  lemma {:induction false} NumberOnlyFromArithmetic(table: OpTable, node: Node)
    requires Visit(table, node).Ok? && Visit(table, node).value.Num?
    ensures Arithmetical(table, node)
  {
    match node
    case Constant(_) =>
    case Expr(value) => NumberOnlyFromArithmetic(table, value);
    case BinOp(l, op, r) =>
      NumberOnlyFromArithmetic(table, l);
      NumberOnlyFromArithmetic(table, r);
    case UnaryOp(_, _) =>
    case Name(_) =>
    case Other(_) =>
  }

  /** An arithmetical tree never raises KeyError or TypeError and never yields
      `None`: it evaluates to a number unless a division or power is undefined. */
  lemma {:induction false} ArithmeticEvaluates(table: OpTable, node: Node)
    requires Arithmetical(table, node)
    ensures Visit(table, node).Ok? ==> Visit(table, node).value.Num?
    ensures Visit(table, node).Err? ==> Visit(table, node).error in {ZeroDivisionError, Unmodelled}
  {
    match node
    case Constant(_) =>
    case Expr(value) => ArithmeticEvaluates(table, value);
    case BinOp(l, op, r) =>
      ArithmeticEvaluates(table, l);
      ArithmeticEvaluates(table, r);
  }

  /** An operator without a table entry raises KeyError once both operands have
      been visited, even when an operand is `None`; an operator with an entry
      never raises KeyError. */
  lemma KeyErrorIffMissing(table: OpTable, l: Node, op: BinaryOperator, r: Node)
    requires Visit(table, l).Ok? && Visit(table, r).Ok?
    ensures Visit(table, BinOp(l, op, r)) == Err(KeyError) <==> Binary(op) !in table
  {
  }

  /** Only the binary entries of a table matter: two tables that agree on them
      evaluate every tree alike. In particular the `Invert` entry is never used. */
  lemma {:induction false} OnlyBinaryEntriesMatter(t1: OpTable, t2: OpTable, node: Node)
    requires forall op :: Binary(op) in t1 <==> Binary(op) in t2
    ensures Visit(t1, node) == Visit(t2, node)
    decreases node
  {
    match node
    case Constant(_) =>
    case Expr(value) => OnlyBinaryEntriesMatter(t1, t2, value);
    case BinOp(l, op, r) =>
      OnlyBinaryEntriesMatter(t1, t2, l);
      OnlyBinaryEntriesMatter(t1, t2, r);
    case UnaryOp(_, operand) => OnlyBinaryEntriesMatter(t1, t2, operand);
    case Name(_) =>
    case Other(children) => OnlyBinaryEntriesMatterAll(t1, t2, children);
  }

  lemma {:induction false} OnlyBinaryEntriesMatterAll(t1: OpTable, t2: OpTable, nodes: seq<Node>)
    requires forall op :: Binary(op) in t1 <==> Binary(op) in t2
    ensures VisitAll(t1, nodes) == VisitAll(t2, nodes)
    decreases nodes
  {
    if |nodes| > 0 {
      OnlyBinaryEntriesMatter(t1, t2, nodes[0]);
      OnlyBinaryEntriesMatterAll(t1, t2, nodes[1..]);
    }
  }

  /** The `Invert` entry is unreachable: dropping it changes no evaluation. */
  lemma InvertUnreachable(table: OpTable, node: Node)
    ensures Visit(table, node) == Visit(table - {Unary(Invert)}, node)
  {
    OnlyBinaryEntriesMatter(table, table - {Unary(Invert)}, node);
  }

  /** There is no unary handler: a negated operand yields `None`, so `int()` of
      it and any operator with an entry around it raise TypeError instead of negating. */
  lemma UnaryMinusFails(table: OpTable, operand: Node, op: BinaryOperator, r: Node)
    requires Visit(table, operand).Ok?
    requires Binary(op) in table && Visit(table, r).Ok?
    ensures Visit(table, UnaryOp(USub, operand)) == Ok(NoValue)
    ensures Int(Visit(table, UnaryOp(USub, operand)).value) == Err(TypeError)
    ensures Visit(table, BinOp(UnaryOp(USub, operand), op, r)) == Err(TypeError)
    ensures Visit(table, BinOp(r, op, UnaryOp(USub, operand))) == Err(TypeError)
  {
  }

  /** A bare name yields `None` too: `int()` of it raises TypeError. */
  lemma NameHasNoValue(table: OpTable, id: string)
    ensures Visit(table, Name(id)) == Ok(NoValue)
    ensures Int(Visit(table, Name(id)).value) == Err(TypeError)
  {
  }

  /** The revisions without `Pow` raise KeyError on every `**` whose operands
      evaluate; the revisions with it compute integral powers. */
  lemma PowByRevision(l: Node, r: Node, a: real, n: nat)
    requires Visit(TableWithoutPow, l).Ok? && Visit(TableWithoutPow, r).Ok?
    requires Visit(TableWithPow, l) == Ok(Num(a)) && Visit(TableWithPow, r) == Ok(Num(n as real))
    ensures Visit(TableWithoutPow, BinOp(l, Pow, r)) == Err(KeyError)
    ensures Visit(TableWithPow, BinOp(l, Pow, r)) == Ok(Num(Power(a, n)))
  {
    assert Binary(Pow) !in TableWithoutPow;
    assert (n as real).Floor == n;
  }

  /** Both kinds of table agree on every tree without `**`. */
  lemma {:induction false} TablesAgreeWithoutPow(node: Node)
    requires !MentionsPow(node)
    ensures Visit(TableWithPow, node) == Visit(TableWithoutPow, node)
    decreases node
  {
    match node
    case Constant(_) =>
    case Expr(value) => TablesAgreeWithoutPow(value);
    case BinOp(l, op, r) =>
      TablesAgreeWithoutPow(l);
      TablesAgreeWithoutPow(r);
    case UnaryOp(_, operand) => TablesAgreeWithoutPow(operand);
    case Name(_) =>
    case Other(children) => TablesAgreeWithoutPowAll(children);
  }

  lemma {:induction false} TablesAgreeWithoutPowAll(nodes: seq<Node>)
    requires forall k | 0 <= k < |nodes| :: !MentionsPow(nodes[k])
    ensures VisitAll(TableWithPow, nodes) == VisitAll(TableWithoutPow, nodes)
    decreases nodes
  {
    if |nodes| > 0 {
      TablesAgreeWithoutPow(nodes[0]);
      TablesAgreeWithoutPowAll(nodes[1..]);
    }
  }

  /** Whether a `**` occurs anywhere in the tree. */
  predicate MentionsPow(node: Node)
    decreases node
  {
    match node
    case Constant(_) => false
    case Expr(value) => MentionsPow(value)
    case BinOp(l, op, r) => op == Pow || MentionsPow(l) || MentionsPow(r)
    case UnaryOp(_, operand) => MentionsPow(operand)
    case Name(_) => false
    case Other(children) => exists k | 0 <= k < |children| :: MentionsPow(children[k])
  }
}

=== FILE: calc_vectors.dfy ===
/**
  The formula vectors of the test suite, as the trees `ast.parse` builds for
  them (Python precedence, left associativity), evaluated under both kinds of
  operator table and cast with `int()`.
 */
module CalcVectors {
  import opened Py
  import opened Calc

  function Lit(n: int): Node {
    Constant(n as real)
  }

  /** The module `ast.parse` returns for a single expression. */
  function Statement(e: Node): PyModule {
    PyModule([Expr(e)])
  }

  /** "1+2" */
  const OnePlusTwo := Statement(BinOp(Lit(1), Add, Lit(2)))
  /** "3+4+5" */
  const ThreeFourFive := Statement(BinOp(BinOp(Lit(3), Add, Lit(4)), Add, Lit(5)))
  /** "7-6" */
  const SevenMinusSix := Statement(BinOp(Lit(7), Sub, Lit(6)))
  /** "10-8-9" */
  const TenMinusEightMinusNine := Statement(BinOp(BinOp(Lit(10), Sub, Lit(8)), Sub, Lit(9)))
  /** "5*5" */
  const FiveTimesFive := Statement(BinOp(Lit(5), Mult, Lit(5)))
  /** "100*10*3" */
  const HundredTimesTenTimesThree := Statement(BinOp(BinOp(Lit(100), Mult, Lit(10)), Mult, Lit(3)))
  /** "19/5" */
  const NineteenOverFive := Statement(BinOp(Lit(19), Div, Lit(5)))
  /** "1000/20/2" */
  const ThousandOverTwentyOverTwo := Statement(BinOp(BinOp(Lit(1000), Div, Lit(20)), Div, Lit(2)))
  /** "2**3" */
  const TwoToTheThree := Statement(BinOp(Lit(2), Pow, Lit(3)))
  /** "10-7+(3*5)/(10**2)" */
  const Mixed := Statement(
    BinOp(BinOp(Lit(10), Sub, Lit(7)), Add, BinOp(BinOp(Lit(3), Mult, Lit(5)), Div, BinOp(Lit(10), Pow, Lit(2)))))


  /** The additive and multiplicative vectors hold under any such table. */
  lemma IntegerVectors(table: OpTable)
    requires HasBasicOps(table)
    ensures EvaluateInt(table, OnePlusTwo) == Ok(3)
    ensures EvaluateInt(table, ThreeFourFive) == Ok(12)
    ensures EvaluateInt(table, SevenMinusSix) == Ok(1)
    ensures EvaluateInt(table, TenMinusEightMinusNine) == Ok(-7)
    ensures EvaluateInt(table, FiveTimesFive) == Ok(25)
    ensures EvaluateInt(table, HundredTimesTenTimesThree) == Ok(3000)
  {
  }

  /** The division vectors hold after `int()` truncation. */
  lemma DivisionVectors(table: OpTable)
    requires HasBasicOps(table)
    ensures EvaluateInt(table, NineteenOverFive) == Ok(3)
    ensures EvaluateInt(table, ThousandOverTwentyOverTwo) == Ok(25)
  {
    assert (19.0 / 5.0).Floor == 3;
  }

  /** The `**` vectors hold with `Pow` in the table. */
  lemma VectorsWithPow()
    ensures EvaluateInt(TableWithPow, TwoToTheThree) == Ok(8)
    ensures EvaluateInt(TableWithPow, Mixed) == Ok(3)
  {
    assert Power(10.0, 2) == 100.0;
    assert Visit(TableWithPow, BinOp(BinOp(Lit(3), Mult, Lit(5)), Div, BinOp(Lit(10), Pow, Lit(2)))) == Ok(Num(0.15));
    assert (3.15).Floor == 3;
  }

  /** Without `Pow` in the table the same `**` vectors raise KeyError, after
      their operands were evaluated. */
  lemma VectorsWithoutPow()
    ensures EvaluateInt(TableWithoutPow, TwoToTheThree) == Err(KeyError)
    ensures EvaluateInt(TableWithoutPow, Mixed) == Err(KeyError)
  {
    assert Binary(Pow) !in TableWithoutPow;
  }
}

=== FILE: components.dfy ===
/**
  The component revisions (kbr_char/magic.py and kbr_char/green.py): spell
  components of four categories, the collection that loads them from
  category-keyed records, and spells that hold references to components.

  Python objects are shared by reference: the collection's component list is
  the arena, a spell holds positions in it, and customizing a component is an
  update of the arena that every spell holding that position sees.
 */
module Components {
  import opened Py
  import opened Calc
  import opened Difficulty

  /** The class of a component: the base class `SpellComponent` or one of its
      four subclasses, which add nothing but their type. */
  datatype Kind = SpellComponent | Element | Range | Shape | Modifier

  /** `isinstance(obj, cls)` for an object of class `k`: the base class admits
      every component, a subclass only its own objects. */
  predicate IsInstance(k: Kind, cls: Kind) {
    cls == SpellComponent || k == cls
  }

  datatype Component = Component(
    kind: Kind,
    name: string,
    x: int,
    formula: string,
    units: Option<string>,
    desc: Option<string>)

  /** The collection's component list; spells refer to components by position. */
  type Catalog = seq<Component>

  /** The `dc` property, recomputed from the current `x` on every access. */
  function Dc(ev: Evaluator, c: Component): Result<int> {
    ComponentDc(ev, c.formula, c.x)
  }

  /** `customize(x)`: sets `x` and nothing else. */
  function Customize(c: Component, x: int): (r: Component)
    ensures r.x == x
    ensures r.(x := c.x) == c
  {
    c.(x := x)
  }

  /** `catalog[i].customize(x)` on the shared object. */
  function CustomizeAt(cat: Catalog, i: nat, x: int): (r: Catalog)
    requires i < |cat|
    ensures |r| == |cat| && r[i] == Customize(cat[i], x)
    ensures forall j | 0 <= j < |cat| && j != i :: r[j] == cat[j]
  {
    cat[i := Customize(cat[i], x)]
  }

  // ---------------------------------------------------------------------------
  // Loading

  /** The keyword arguments a component's constructor accepts. */
  const ComponentFields: set<string> := {"name", "x", "formula", "units", "desc"}

  /** `cls(**record)`: an unexpected key or a missing required one (name, x,
      formula) raises TypeError. */
  function FromRecord(kind: Kind, rec: Record): (r: Result<Component>)
    ensures r.Ok? ==> r.value.kind == kind
    ensures r.Ok? ==> "name" in rec && rec["name"] == JStr(r.value.name)
    ensures r.Ok? ==> "x" in rec && rec["x"] == JInt(r.value.x)
    ensures r.Ok? ==> "formula" in rec && rec["formula"] == JStr(r.value.formula)
    ensures r.Ok? ==> OptStrField(rec, "units") == Ok(r.value.units) && OptStrField(rec, "desc") == Ok(r.value.desc)
    ensures !(rec.Keys <= ComponentFields) ==> r == Err(TypeError)
    ensures "name" !in rec || "x" !in rec || "formula" !in rec ==> r == Err(TypeError)
    ensures r.Err? ==> r.error == TypeError
  {
    if !(rec.Keys <= ComponentFields) then Err(TypeError)
    else
      var name :- StrField(rec, "name");
      var x :- IntField(rec, "x");
      var formula :- StrField(rec, "formula");
      var units :- OptStrField(rec, "units");
      var desc :- OptStrField(rec, "desc");
      Ok(Component(kind, name, x, formula, units, desc))
  }

  /** `[cls(**r) for r in records]`: the first bad record raises. */
  function FromRecords(kind: Kind, rs: seq<Record>): (r: Result<seq<Component>>)
    ensures r.Ok? <==> forall k | 0 <= k < |rs| :: FromRecord(kind, rs[k]).Ok?
    ensures r.Ok? ==> |r.value| == |rs|
    ensures r.Ok? ==> forall k | 0 <= k < |rs| :: r.value[k] == FromRecord(kind, rs[k]).value
    ensures r.Err? ==> r.error == TypeError
  {
    if |rs| == 0 then Ok([])
    else
      var c :- FromRecord(kind, rs[0]);
      var rest :- FromRecords(kind, rs[1..]);
      Ok([c] + rest)
  }

  /** `[cls(**r) for r in init_data[key]]`. */
  function Group(data: Data, key: string, kind: Kind): (r: Result<seq<Component>>)
    ensures key !in Keys(data) ==> r == Err(KeyError)
    ensures r.Ok? ==> forall k | 0 <= k < |r.value| :: r.value[k].kind == kind
  {
    var records :- DictGet(data, key);
    FromRecords(kind, records)
  }

  /** Position of a category in the collection. */
  function Rank(k: Kind): nat {
    match k
    case Element => 0
    case Range => 1
    case Shape => 2
    case Modifier => 3
    case SpellComponent => 4
  }

  /** Every key the collection reads is present and every record under it loads. */
  predicate Loadable(data: Data) {
    && Group(data, "Elements", Element).Ok?
    && Group(data, "Range", Range).Ok?
    && Group(data, "Shape", Shape).Ok?
    && Group(data, "Modifiers", Modifier).Ok?
  }

  /** kbr_char/green.py `__post_init__`: elements + ranges + shapes + modifiers. */
  function Build(data: Data): (r: Result<Catalog>)
    ensures r.Ok? <==> Loadable(data)
    ensures "Elements" !in Keys(data) ==> r == Err(KeyError)
    ensures Group(data, "Elements", Element).Ok? && "Range" !in Keys(data) ==> r == Err(KeyError)
    ensures (Group(data, "Elements", Element).Ok? && Group(data, "Range", Range).Ok?
             && "Shape" !in Keys(data)) ==> r == Err(KeyError)
    ensures (Group(data, "Elements", Element).Ok? && Group(data, "Range", Range).Ok?
             && Group(data, "Shape", Shape).Ok? && "Modifiers" !in Keys(data)) ==> r == Err(KeyError)
    ensures r.Err? ==> r.error in {KeyError, TypeError}
  {
    var elements :- Group(data, "Elements", Element);
    var ranges :- Group(data, "Range", Range);
    var shapes :- Group(data, "Shape", Shape);
    var modifiers :- Group(data, "Modifiers", Modifier);
    Ok(elements + ranges + shapes + modifiers)
  }

  /** Appends `items` one by one, as the loops of kbr_char/magic.py do. */
  method AppendEach(components: Catalog, items: seq<Component>) returns (r: Catalog)
    ensures r == components + items
  {
    r := components;
    var i := 0;
    while i < |items|
      invariant 0 <= i <= |items|
      invariant r == components + items[..i]
    {
      r := r + [items[i]];
      i := i + 1;
    }
    assert items[..i] == items;
  }

  /** kbr_char/magic.py `__post_init__`: builds the four lists, then appends each
      to the `components` list the collection was given (empty by default). It
      loads what kbr_char/green.py loads, after whatever the list already held. */
  method BuildByAppending(data: Data, components: Catalog) returns (r: Result<Catalog>)
    ensures r.Ok? <==> Build(data).Ok?
    ensures r.Ok? ==> r.value == components + Build(data).value
    ensures r.Err? ==> r.error == Build(data).error
  {
    var elements := Group(data, "Elements", Element);
    if elements.Err? {
      assert Build(data) == Err(elements.error);
      return Err(elements.error);
    }
    var ranges := Group(data, "Range", Range);
    if ranges.Err? {
      assert Build(data) == Err(ranges.error);
      return Err(ranges.error);
    }
    var shapes := Group(data, "Shape", Shape);
    if shapes.Err? {
      assert Build(data) == Err(shapes.error);
      return Err(shapes.error);
    }
    var modifiers := Group(data, "Modifiers", Modifier);
    if modifiers.Err? {
      assert Build(data) == Err(modifiers.error);
      return Err(modifiers.error);
    }
    var e, rg, sh, m := elements.value, ranges.value, shapes.value, modifiers.value;
    assert Build(data) == Ok(e + rg + sh + m);
    var all := AppendEach(components, e);
    all := AppendEach(all, rg);
    all := AppendEach(all, sh);
    all := AppendEach(all, m);
    ConcatFour(components, e, rg, sh, m);
    return Ok(all);
  }

  lemma ConcatFour(a: Catalog, e: Catalog, r: Catalog, s: Catalog, m: Catalog)
    ensures a + e + r + s + m == a + (e + r + s + m)
  {
    assert a + e + r == a + (e + r);
    assert a + e + r + s == a + (e + r + s);
  }

  /** The filter keeping one category. */
  function OfKind(kind: Kind): Component -> bool {
    (c: Component) => c.kind == kind
  }

  /** All Elements come first, then all Ranges, then all Shapes, then all Modifiers. */
  lemma BuildOrdersCategories(data: Data)
    requires Loadable(data)
    ensures forall i, j | 0 <= i < j < |Build(data).value| ::
      Rank(Build(data).value[i].kind) <= Rank(Build(data).value[j].kind)
    ensures forall i | 0 <= i < |Build(data).value| :: Build(data).value[i].kind != SpellComponent
  {
    var e, r, s, m :=
      Group(data, "Elements", Element).value, Group(data, "Range", Range).value,
      Group(data, "Shape", Shape).value, Group(data, "Modifiers", Modifier).value;
    var c := Build(data).value;
    assert c == e + r + s + m;
    forall i | 0 <= i < |c|
      ensures c[i].kind != SpellComponent
      ensures i < |e| ==> c[i].kind == Element
      ensures |e| <= i < |e| + |r| ==> c[i].kind == Range
      ensures |e| + |r| <= i < |e| + |r| + |s| ==> c[i].kind == Shape
      ensures |e| + |r| + |s| <= i ==> c[i].kind == Modifier
    {
      if i < |e| {
        assert c[i] == e[i];
      } else if i < |e| + |r| {
        assert c[i] == r[i - |e|];
      } else if i < |e| + |r| + |s| {
        assert c[i] == s[i - |e| - |r|];
      } else {
        assert c[i] == m[i - |e| - |r| - |s|];
      }
    }
  }

  /** Each category's components sit in the collection in the order of their records. */
  lemma BuildKeepsGroups(data: Data)
    requires Loadable(data)
    ensures Filter(Build(data).value, OfKind(Element)) == Group(data, "Elements", Element).value
    ensures Filter(Build(data).value, OfKind(Range)) == Group(data, "Range", Range).value
    ensures Filter(Build(data).value, OfKind(Shape)) == Group(data, "Shape", Shape).value
    ensures Filter(Build(data).value, OfKind(Modifier)) == Group(data, "Modifiers", Modifier).value
  {
    var e, r, s, m :=
      Group(data, "Elements", Element).value, Group(data, "Range", Range).value,
      Group(data, "Shape", Shape).value, Group(data, "Modifiers", Modifier).value;
    assert Build(data).value == e + r + s + m;
    FilterFour(e, r, s, m, Element);
    FilterFour(e, r, s, m, Range);
    FilterFour(e, r, s, m, Shape);
    FilterFour(e, r, s, m, Modifier);
    FilterOneKind(e, Element, Range);
    FilterOneKind(e, Element, Shape);
    FilterOneKind(e, Element, Modifier);
    FilterOneKind(e, Element, Element);
    FilterOneKind(r, Range, Element);
    FilterOneKind(r, Range, Shape);
    FilterOneKind(r, Range, Modifier);
    FilterOneKind(r, Range, Range);
    FilterOneKind(s, Shape, Element);
    FilterOneKind(s, Shape, Range);
    FilterOneKind(s, Shape, Modifier);
    FilterOneKind(s, Shape, Shape);
    FilterOneKind(m, Modifier, Element);
    FilterOneKind(m, Modifier, Range);
    FilterOneKind(m, Modifier, Shape);
    FilterOneKind(m, Modifier, Modifier);
  }

  lemma FilterFour(e: Catalog, r: Catalog, s: Catalog, m: Catalog, kind: Kind)
    ensures Filter(e + r + s + m, OfKind(kind)) ==
      Filter(e, OfKind(kind)) + Filter(r, OfKind(kind)) + Filter(s, OfKind(kind)) + Filter(m, OfKind(kind))
  {
    FilterConcat(e + r + s, m, OfKind(kind));
    FilterConcat(e + r, s, OfKind(kind));
    FilterConcat(e, r, OfKind(kind));
  }

  lemma FilterOneKind(xs: Catalog, k: Kind, kind: Kind)
    requires forall i | 0 <= i < |xs| :: xs[i].kind == k
    ensures Filter(xs, OfKind(kind)) == if k == kind then xs else []
  {
    if k == kind {
      FilterAll(xs, OfKind(kind));
    } else {
      FilterNone(xs, OfKind(kind));
    }
  }

  // ---------------------------------------------------------------------------
  // Lookup

  /** The test `get` applies: of class `cls`, named `name` ignoring case. */
  predicate Matches(c: Component, cls: Kind, name: string) {
    IsInstance(c.kind, cls) && SameIgnoringCase(c.name, name)
  }

  /** `get(cls, name)` (kbr_char/green.py: `get_component`): the first match, or
      IndexError when the filtered list is empty. */
  function Get(cat: Catalog, cls: Kind, name: string): (r: Result<nat>)
    ensures r.Ok? ==> r.value < |cat| && Matches(cat[r.value], cls, name)
    ensures r.Ok? ==> forall j | 0 <= j < r.value :: !Matches(cat[j], cls, name)
    ensures r.Err? <==> forall j | 0 <= j < |cat| :: !Matches(cat[j], cls, name)
    ensures r.Err? ==> r.error == IndexError
  {
    match FirstWhere(cat, (c: Component) => Matches(c, cls, name))
    case None => Err(IndexError)
    case Some(i) => Ok(i)
  }

  /** `get_by_type(cls)` (kbr_char/green.py: `get_components_by_type`): the
      positions of every instance of `cls`, in collection order. */
  function ByType(cat: Catalog, cls: Kind): (r: seq<nat>)
    ensures forall k | 0 <= k < |r| :: r[k] < |cat| && IsInstance(cat[r[k]].kind, cls)
    ensures forall i | 0 <= i < |cat| && IsInstance(cat[i].kind, cls) :: i in r
    ensures forall a, b | 0 <= a < b < |r| :: r[a] < r[b]
  {
    IndicesWhere(cat, (c: Component) => IsInstance(c.kind, cls))
  }

  /** `get_by_name(name)` (kbr_char/green.py: `get_components_by_name`): the
      positions of every component named `name` ignoring case, in collection order. */
  function ByName(cat: Catalog, name: string): (r: seq<nat>)
    ensures forall k | 0 <= k < |r| :: r[k] < |cat| && SameIgnoringCase(cat[r[k]].name, name)
    ensures forall i | 0 <= i < |cat| && SameIgnoringCase(cat[i].name, name) :: i in r
    ensures forall a, b | 0 <= a < b < |r| :: r[a] < r[b]
  {
    IndicesWhere(cat, (c: Component) => SameIgnoringCase(c.name, name))
  }

  /** `get` is blind to case: names that lower-case alike find the same component. */
  lemma GetIgnoresCase(cat: Catalog, cls: Kind, a: string, b: string)
    requires SameIgnoringCase(a, b)
    ensures Get(cat, cls, a) == Get(cat, cls, b)
  {
    IndicesWhereAgree(cat, (c: Component) => Matches(c, cls, a), (c: Component) => Matches(c, cls, b));
  }

  /** Lookup through the base class is lookup by name: `get(SpellComponent, name)`
      is the first entry of `get_by_name(name)`, and IndexError when that is empty. */
  lemma GetBaseIsFirstByName(cat: Catalog, name: string)
    ensures |ByName(cat, name)| == 0 <==> Get(cat, SpellComponent, name) == Err(IndexError)
    ensures |ByName(cat, name)| > 0 ==> Get(cat, SpellComponent, name) == Ok(ByName(cat, name)[0])
  {
    IndicesWhereAgree(cat, (c: Component) => Matches(c, SpellComponent, name),
      (c: Component) => SameIgnoringCase(c.name, name));
  }

  // ---------------------------------------------------------------------------
  // Spells

  /** A spell: a name and references to components, duplicates allowed. */
  datatype Spell = Spell(name: string, components: seq<nat>)

  /** `add_component`: appends the reference, with no duplicate check. */
  function AddComponent(s: Spell, i: nat): (r: Spell)
    ensures r.name == s.name
    ensures |r.components| == |s.components| + 1
    ensures r.components[..|s.components|] == s.components && r.components[|s.components|] == i
  {
    s.(components := s.components + [i])
  }

  /** Every reference of the spell points into the collection. */
  predicate ValidRefs(cat: Catalog, refs: seq<nat>) {
    forall k | 0 <= k < |refs| :: refs[k] < |cat|
  }

  /** `[c.dc for c in components]`. */
  function Dcs(ev: Evaluator, cat: Catalog, refs: seq<nat>): (r: seq<Result<int>>)
    requires ValidRefs(cat, refs)
    ensures |r| == |refs|
  {
    Gather((c: Component) => Dc(ev, c), cat, refs)
  }

  /** `Spell.dc`: the sum of the current `dc` of each referenced component.
      The first component whose `dc` raises decides the exception. */
  function SpellDc(ev: Evaluator, cat: Catalog, s: Spell): (r: Result<int>)
    requires ValidRefs(cat, s.components)
    ensures r.Ok? <==> forall k | 0 <= k < |s.components| :: Dc(ev, cat[s.components[k]]).Ok?
    ensures r.Err? ==> exists k | 0 <= k < |s.components| ::
      && Dc(ev, cat[s.components[k]]) == Err(r.error)
      && forall j | 0 <= j < k :: Dc(ev, cat[s.components[j]]).Ok?
  {
    SumResults(Dcs(ev, cat, s.components))
  }

  /** A new spell has `dc` 0. */
  lemma NewSpellDc(ev: Evaluator, cat: Catalog, name: string)
    ensures SpellDc(ev, cat, Spell(name, [])) == Ok(0)
  {
  }

  /** Adding a component adds its current `dc` to the spell's. */
  lemma AddComponentDc(ev: Evaluator, cat: Catalog, s: Spell, i: nat)
    requires ValidRefs(cat, s.components) && i < |cat|
    ensures ValidRefs(cat, AddComponent(s, i).components)
    ensures SpellDc(ev, cat, AddComponent(s, i)) ==
      (var a :- SpellDc(ev, cat, s); var b :- Dc(ev, cat[i]); Ok(a + b))
  {
    GatherSnocSum((c: Component) => Dc(ev, c), cat, s.components, i);
  }

  /** Customizing a component the spell does not hold leaves the spell's `dc` alone. */
  lemma CustomizeElsewhere(ev: Evaluator, cat: Catalog, s: Spell, i: nat, x: int)
    requires ValidRefs(cat, s.components) && i < |cat|
    requires i !in s.components
    ensures ValidRefs(CustomizeAt(cat, i, x), s.components)
    ensures SpellDc(ev, CustomizeAt(cat, i, x), s) == SpellDc(ev, cat, s)
  {
    assert Dcs(ev, CustomizeAt(cat, i, x), s.components) == Dcs(ev, cat, s.components);
  }

  /** Customizing a shared component moves the `dc` of every spell holding it,
      by the component's change in `dc` once per time the spell holds it. */
  lemma CustomizeShared(ev: Evaluator, cat: Catalog, s: Spell, i: nat, x: int, before: int, after: int)
    requires ValidRefs(cat, s.components) && i < |cat|
    requires SpellDc(ev, cat, s).Ok?
    requires Dc(ev, cat[i]) == Ok(before) && Dc(ev, Customize(cat[i], x)) == Ok(after)
    ensures ValidRefs(CustomizeAt(cat, i, x), s.components)
    ensures SpellDc(ev, CustomizeAt(cat, i, x), s) ==
      Ok(SpellDc(ev, cat, s).value + Occurrences(s.components, i) * (after - before))
  {
    GatherReplaceShift((c: Component) => Dc(ev, c), cat, CustomizeAt(cat, i, x), s.components, i, before, after);
  }
}

=== FILE: difficulty.dfy ===
/**
  The difficulty (`dc`) of one catalog entry: every character `x` of the
  entry's formula is replaced by the decimal text of the entry's integer `x`,
  the text is evaluated by `Calc`, and the result is cast with `int()`.
  The component revisions always do this; the quality revisions do it only
  for a truthy formula and otherwise return `x` itself.
 */
module Difficulty {
  import opened Py
  import opened Calc

  /** What a revision evaluates formulas with: its operator table and the parser
      that stands in for `ast.parse`. */
  datatype Evaluator = Evaluator(table: OpTable, parse: Parser)

  /** `formula.replace("x", str(x))`: the text handed to the evaluator. */
  function Substitute(formula: string, x: int): string {
    Replace(formula, 'x', IntToStr(x))
  }

  /** No placeholder survives substitution; a formula without one is handed to
      the evaluator as written; a negative `x` brings a minus sign into the text. */
  lemma SubstituteRemovesPlaceholder(formula: string, x: int)
    ensures 'x' !in Substitute(formula, x)
    ensures 'x' !in formula ==> Substitute(formula, x) == formula
    ensures 'x' in formula && x < 0 ==> '-' in Substitute(formula, x)
  {
    ReplaceKeeps(formula, 'x', IntToStr(x));
    ReplaceShowsReplacement(formula, 'x', IntToStr(x));
  }

  /** The text is the formula's pieces between placeholders, joined by `str(x)`;
      so each `x` grows the text by the length of `str(x)` less one. */
  lemma SubstituteLength(formula: string, x: int)
    ensures Substitute(formula, x) == Join(Split(formula, 'x'), IntToStr(x))
    ensures |Substitute(formula, x)| == |formula| + CountChar(formula, 'x') * (|IntToStr(x)| - 1)
  {
    ReplaceIsSplitJoin(formula, 'x', IntToStr(x));
    ReplaceLength(formula, 'x', IntToStr(x));
  }

  /** `int(Calc.evaluate(formula.replace("x", str(x))))`: the `dc` property of the
      component revisions. */
  function ComponentDc(ev: Evaluator, formula: string, x: int): Result<int> {
    var m :- ev.parse(Substitute(formula, x));
    EvaluateInt(ev.table, m)
  }

  /** Once the text parses, the only exceptions are the evaluator's and the
      IndexError of an empty module. */
  lemma ComponentDcErrors(ev: Evaluator, formula: string, x: int)
    requires ev.parse(Substitute(formula, x)).Ok?
    ensures ComponentDc(ev, formula, x).Err? ==> ComponentDc(ev, formula, x).error in VisitErrors + {IndexError}
  {
  }

  /** The `dc` property of the quality revisions: a falsy formula (None or "")
      short-circuits to `x`. */
  function QualityDc(ev: Evaluator, formula: Option<string>, x: int): Result<int> {
    if TruthyStr(formula) then ComponentDc(ev, formula.value, x) else Ok(x)
  }

  // ---------------------------------------------------------------------------
  // What the parser is assumed to do with the decimal text of a number

  /** `ast.parse(str(n))` is a single constant statement. */
  predicate ParsesNatural(parse: Parser, n: nat) {
    parse(NatToStr(n)) == Ok(PyModule([Expr(Constant(n as real))]))
  }

  /** `ast.parse("-" + str(n))` is a unary minus applied to a constant. */
  predicate ParsesNegated(parse: Parser, n: nat) {
    parse("-" + NatToStr(n)) == Ok(PyModule([Expr(UnaryOp(USub, Constant(n as real)))]))
  }

  // ---------------------------------------------------------------------------
  // Properties

  /** A formula without the placeholder ignores `x`: customizing such an entry
      never changes its `dc`. */
  lemma ConstantFormula(ev: Evaluator, formula: string, x: int, y: int)
    requires 'x' !in formula
    ensures ComponentDc(ev, formula, x) == ComponentDc(ev, formula, y)
  {
    SubstituteRemovesPlaceholder(formula, x);
    SubstituteRemovesPlaceholder(formula, y);
  }

  /** The identity formula "x" gives back a non-negative `x`. */
  lemma IdentityFormula(ev: Evaluator, x: nat)
    requires ParsesNatural(ev.parse, x)
    ensures ComponentDc(ev, "x", x) == Ok(x)
  {
    var m := PyModule([Expr(Constant(x as real))]);
    assert "x"[1..] == "";
    assert Replace("x", 'x', IntToStr(x)) == IntToStr(x) + "";
    assert Substitute("x", x) == NatToStr(x);
    assert Visit(ev.table, Expr(Constant(x as real))) == Ok(Num(x as real));
    assert Int(Num(x as real)) == Ok(x);
    assert EvaluateInt(ev.table, m) == Ok(x);
  }

  /** A negative `x` puts a unary minus into the text, which the evaluator has no
      handler for: `dc` raises TypeError instead of returning `x`. */
  lemma NegativeIdentityFails(ev: Evaluator, x: int)
    requires x < 0
    requires ParsesNegated(ev.parse, -x)
    ensures ComponentDc(ev, "x", x) == Err(TypeError)
  {
    var neg := UnaryOp(USub, Constant((-x) as real));
    assert "x"[1..] == "";
    assert Replace("x", 'x', IntToStr(x)) == IntToStr(x) + "";
    assert Substitute("x", x) == "-" + NatToStr(-x);
    assert Visit(ev.table, Expr(neg)) == Visit(ev.table, neg) == Ok(NoValue);
    assert EvaluateInt(ev.table, PyModule([Expr(neg)])) == Err(TypeError);
  }

  /** A falsy formula returns `x` unchanged, whatever its sign. */
  lemma FalsyFormula(ev: Evaluator, formula: Option<string>, x: int)
    requires !TruthyStr(formula)
    ensures QualityDc(ev, formula, x) == Ok(x)
  {
  }

  /** The default quality formula "x" agrees with a falsy one for a non-negative
      `x`, and raises TypeError for a negative one. */
  lemma DefaultQualityFormula(ev: Evaluator, x: int)
    requires x >= 0 ==> ParsesNatural(ev.parse, x)
    requires x < 0 ==> ParsesNegated(ev.parse, -x)
    ensures x >= 0 ==> QualityDc(ev, Some("x"), x) == QualityDc(ev, None, x) == Ok(x)
    ensures x < 0 ==> QualityDc(ev, Some("x"), x) == Err(TypeError)
  {
    if x >= 0 {
      IdentityFormula(ev, x);
    } else {
      NegativeIdentityFails(ev, x);
    }
  }

  /** "x/2-10": `100/2-10` as `ast.parse` builds it. */
  function HalfMinusTen(n: int): PyModule {
    PyModule([Expr(BinOp(BinOp(Constant(n as real), Div, Constant(2.0)), Sub, Constant(10.0)))])
  }

  /** A range entry with formula "x/2-10" has `dc` 40 at `x` 100, and 90 once
      customized to 200. */
  lemma CustomizedRangeExample(ev: Evaluator)
    requires HasBasicOps(ev.table)
    requires ev.parse("100" + "/2-10") == Ok(HalfMinusTen(100))
    requires ev.parse("200" + "/2-10") == Ok(HalfMinusTen(200))
    ensures ComponentDc(ev, "x/2-10", 100) == Ok(40)
    ensures ComponentDc(ev, "x/2-10", 200) == Ok(90)
  {
    SubstituteOneHundred();
    SubstituteTwoHundred();
    HalfMinusTenValue(ev.table, 100, 40);
    HalfMinusTenValue(ev.table, 200, 90);
  }

  lemma SubstituteOneHundred()
    ensures Substitute("x/2-10", 100) == "100" + "/2-10"
  {
    LeadingPlaceholder(100);
    HundredsText(1);
    assert DigitChar(1) == '1';
    assert IntToStr(100) == "100";
  }

  lemma SubstituteTwoHundred()
    ensures Substitute("x/2-10", 200) == "200" + "/2-10"
  {
    LeadingPlaceholder(200);
    HundredsText(2);
    assert DigitChar(2) == '2';
    assert IntToStr(200) == "200";
  }

  /** `str(100 * d)` for a single digit `d`. */
  lemma HundredsText(d: nat)
    requires 1 <= d <= 2
    ensures IntToStr(100 * d) == [DigitChar(d), '0', '0']
  {
    var n := 100 * d;
    NatToStrStep(n);
    assert n / 10 == 10 * d && n % 10 == 0;
    NatToStrStep(10 * d);
    assert (10 * d) / 10 == d && (10 * d) % 10 == 0;
    assert NatToStr(d) == [DigitChar(d)];
  }

  /** Only the leading `x` of "x/2-10" is replaced. */
  lemma LeadingPlaceholder(x: int)
    ensures Substitute("x/2-10", x) == IntToStr(x) + "/2-10"
  {
    var f := "x/2-10";
    var rep := IntToStr(x);
    assert f[1..] == "/2-10";
    assert 'x' !in f[1..];
    ReplaceKeeps(f[1..], 'x', rep);
    assert Replace(f, 'x', rep) == rep + Replace(f[1..], 'x', rep);
  }

  lemma HalfMinusTenValue(table: OpTable, n: int, expected: int)
    requires HasBasicOps(table)
    requires n == 2 * expected + 20
    ensures EvaluateInt(table, HalfMinusTen(n)) == Ok(expected)
  {
    var half := BinOp(Constant(n as real), Div, Constant(2.0));
    var whole := BinOp(half, Sub, Constant(10.0));
    assert Visit(table, half) == Ok(Num(n as real / 2.0));
    assert n as real / 2.0 - 10.0 == expected as real;
    assert Visit(table, whole) == Ok(Num(expected as real));
    assert Visit(table, Expr(whole)) == Ok(Num(expected as real));
    assert Int(Num(expected as real)) == Ok(expected);
  }
}

=== FILE: factory.dfy ===
/**
  `SpellFactory` of the quality revisions. It loads every quality from the
  configuration, hands out spells, and looks qualities up by name. The
  kbr_char/spells.py factory also records the configuration's category keys
  in `order`. The top-level spells.py factory has no `order`, and its field is
  None here.
 */
module SpellFactory {
  import opened Py
  import opened Difficulty
  import opened Qualities

  /** A factory. It owns the quality list that spells refer into, and the
      spells it created. */
  datatype Factory = Factory(qualities: seq<Quality>, spells: seq<Spell>, order: Option<seq<string>>)

  // ---------------------------------------------------------------------------
  // Loading

  /** `[Quality(**q, catagory=key) for q in records]` appended one by one to `results`. */
  method AppendRecords(results: seq<Quality>, records: seq<Record>, key: string) returns (r: Result<seq<Quality>>)
    ensures r.Ok? <==> FromRecords(records, key).Ok?
    ensures r.Ok? ==> r.value == results + FromRecords(records, key).value
    ensures r.Err? ==> r.error == TypeError
  {
    var out := results;
    var j := 0;
    while j < |records|
      invariant 0 <= j <= |records|
      invariant |out| == |results| + j && out[..|results|] == results
      invariant forall l | 0 <= l < j :: FromRecord(records[l], key).Ok? && out[|results| + l] == FromRecord(records[l], key).value
    {
      var q := FromRecord(records[j], key);
      if q.Err? {
        return Err(q.error);
      }
      out := out + [q.value];
      j := j + 1;
    }
    assert out == results + FromRecords(records, key).value;
    return Ok(out);
  }

  /** `load_qualities(data)`: for each category in order, records the key in
      `order` (kbr_char/spells.py only) and then builds its qualities. The list
      is returned, not stored; a bad record raises TypeError after its category
      key was already recorded. */
  method LoadQualities(f: Factory, data: Data) returns (f': Factory, r: Result<seq<Quality>>)
    ensures r == LoadRecords(data)
    ensures f'.qualities == f.qualities && f'.spells == f.spells
    ensures f.order.None? <==> f'.order.None?
    ensures f.order.Some? && r.Ok? ==> f'.order == Some(f.order.value + Keys(data))
    ensures f.order.Some? && r.Err? ==> exists k | 0 <= k < |data| ::
      && LoadRecords(data[..k]).Ok?
      && FromRecords(data[k].1, data[k].0).Err?
      && f'.order == Some(f.order.value + Keys(data[..k + 1]))
  {
    var results: seq<Quality> := [];
    var order := f.order;
    var i := 0;
    assert data[..0] == [] && Keys([]) == [];
    assert f.order.Some? ==> f.order.value + [] == f.order.value;
    while i < |data|
      invariant 0 <= i <= |data|
      invariant LoadRecords(data[..i]) == Ok(results)
      invariant f.order.None? ==> order.None?
      invariant f.order.Some? ==> order == Some(f.order.value + Keys(data[..i]))
    {
      var key := data[i].0;
      if order.Some? {
        OrderSnoc(f.order, data, i);
        order := Some(order.value + [key]);
      }
      var group := AppendRecords(results, data[i].1, key);
      LoadRecordsSnoc(data, i);
      if group.Err? {
        LoadRecordsPrefixFails(data, i + 1);
        return f.(order := order), Err(group.error);
      }
      results := group.value;
      i := i + 1;
    }
    assert data[..i] == data;
    return f.(order := order), Ok(results);
  }

  /** Recording one more category key. */
  lemma OrderSnoc(order: Option<seq<string>>, data: Data, i: nat)
    requires i < |data| && order.Some?
    ensures order.value + Keys(data[..i]) + [data[i].0] == order.value + Keys(data[..i + 1])
  {
    assert Keys(data[..i + 1]) == Keys(data[..i]) + [data[i].0];
  }

  /** Loading concatenates over the categories. */
  lemma {:induction false} LoadRecordsAppend(a: Data, b: Data)
    ensures LoadRecords(a + b) == (var x :- LoadRecords(a); var y :- LoadRecords(b); Ok(x + y))
  {
    if |a| == 0 {
      assert a + b == b;
      assert LoadRecords(b).Ok? ==> [] + LoadRecords(b).value == LoadRecords(b).value;
    } else {
      assert (a + b)[0] == a[0];
      assert (a + b)[1..] == a[1..] + b;
      LoadRecordsAppend(a[1..], b);
      var first := FromRecords(a[0].1, a[0].0);
      if first.Ok? && LoadRecords(a[1..]).Ok? && LoadRecords(b).Ok? {
        assert first.value + (LoadRecords(a[1..]).value + LoadRecords(b).value)
            == first.value + LoadRecords(a[1..]).value + LoadRecords(b).value;
      }
    }
  }

  /** Loading one more category. */
  lemma LoadRecordsSnoc(data: Data, i: nat)
    requires i < |data|
    ensures LoadRecords(data[..i + 1]) ==
      (var x :- LoadRecords(data[..i]); var y :- FromRecords(data[i].1, data[i].0); Ok(x + y))
  {
    assert data[..i + 1] == data[..i] + [data[i]];
    LoadRecordsAppend(data[..i], [data[i]]);
    assert [data[i]][1..] == [];
    var y := FromRecords(data[i].1, data[i].0);
    assert y.Ok? ==> LoadRecords([data[i]]) == Ok(y.value + []) && y.value + [] == y.value;
  }

  /** A failing prefix makes the whole load fail. */
  lemma LoadRecordsPrefixFails(data: Data, i: nat)
    requires i <= |data| && LoadRecords(data[..i]).Err?
    ensures LoadRecords(data).Err?
  {
    assert data == data[..i] + data[i..];
    LoadRecordsAppend(data[..i], data[i..]);
  }

  /** `SpellFactory(config, spells, order)`: `__post_init__` loads the
      qualities and stores them; a bad record makes construction raise. The
      `spells` are kept as given. `order` is None for the spells.py revision,
      which has no such field; in kbr_char/spells.py it is the caller's list
      (empty by default), to which loading appends the category keys. */
  method NewFactory(data: Data, spells: seq<Spell>, order: Option<seq<string>>) returns (r: Result<Factory>)
    ensures r.Ok? <==> LoadRecords(data).Ok?
    ensures r.Err? ==> r.error == TypeError
    ensures r.Ok? ==> r.value.qualities == LoadRecords(data).value && r.value.spells == spells
    ensures r.Ok? ==> r.value.order == if order.Some? then Some(order.value + Keys(data)) else None
  {
    var f, loaded := LoadQualities(Factory([], spells, order), data);
    if loaded.Err? {
      return Err(loaded.error);
    }
    return Ok(f.(qualities := loaded.value));
  }

  // ---------------------------------------------------------------------------
  // Lookup and spells

  /** `factory.<item>` for an item that is not an attribute: the first quality
      with that name, or AttributeError. */
  function GetAttr(f: Factory, item: string): (r: Result<nat>)
    ensures r.Ok? ==> r.value < |f.qualities| && f.qualities[r.value].name == item
    ensures r.Ok? ==> forall j | 0 <= j < r.value :: f.qualities[j].name != item
    ensures r.Err? <==> forall j | 0 <= j < |f.qualities| :: f.qualities[j].name != item
    ensures r.Err? ==> r.error == AttributeError
  {
    match FirstWhere(f.qualities, (q: Quality) => q.name == item)
    case None => Err(AttributeError)
    case Some(i) => Ok(i)
  }

  /** `create_spell(name)`: a new empty spell, kept by the factory; the result is
      its position. kbr_char/spells.py also points the spell's `_order` at the
      factory's `order`. */
  function CreateSpell(f: Factory, name: string): (r: (Factory, nat))
    ensures r.1 == |f.spells| && r.0.spells == f.spells + [NewSpell(name)]
    ensures r.0.qualities == f.qualities && r.0.order == f.order
  {
    (f.(spells := f.spells + [NewSpell(name)]), |f.spells|)
  }

  /** The factory's spells only refer to its qualities. */
  predicate Valid(f: Factory) {
    forall s | s in f.spells :: ValidRefs(f.qualities, s.qualities)
  }

  /** `spell.add_quality(factory.<name>, value)` on one of the factory's spells. */
  function AddQualityTo(f: Factory, si: nat, qi: nat, value: Option<int>): (r: Factory)
    requires si < |f.spells| && qi < |f.qualities|
    ensures |r.spells| == |f.spells| && r.order == f.order
    ensures forall j | 0 <= j < |f.spells| && j != si :: r.spells[j] == f.spells[j]
    ensures (r.qualities, r.spells[si]) == AddQuality(f.qualities, f.spells[si], qi, value)
  {
    var (qs', s') := AddQuality(f.qualities, f.spells[si], qi, value);
    f.(qualities := qs', spells := f.spells[si := s'])
  }

  /** Creating a spell and adding qualities keeps every reference valid. */
  lemma OperationsKeepValid(f: Factory, name: string, si: nat, qi: nat, value: Option<int>)
    requires Valid(f)
    ensures Valid(CreateSpell(f, name).0)
    ensures si < |f.spells| && qi < |f.qualities| ==> Valid(AddQualityTo(f, si, qi, value))
  {
    if si < |f.spells| && qi < |f.qualities| {
      var r := AddQualityTo(f, si, qi, value);
      forall s | s in r.spells
        ensures ValidRefs(r.qualities, s.qualities)
      {
        var j :| 0 <= j < |r.spells| && r.spells[j] == s;
        assert j != si ==> s == f.spells[j];
      }
    }
  }

  /** Names never change, so lookups find the same quality after spells are
      created or qualities added. */
  lemma LookupStable(f: Factory, name: string, si: nat, qi: nat, value: Option<int>, item: string)
    ensures GetAttr(CreateSpell(f, name).0, item) == GetAttr(f, item)
    ensures si < |f.spells| && qi < |f.qualities| ==>
      GetAttr(AddQualityTo(f, si, qi, value), item) == GetAttr(f, item)
  {
    if si < |f.spells| && qi < |f.qualities| {
      var r := AddQualityTo(f, si, qi, value);
      assert forall j | 0 <= j < |f.qualities| :: r.qualities[j].name == f.qualities[j].name;
      SameNamesSameLookup(f, r, item);
    }
  }

  /** Lookup depends only on the quality names, position by position. */
  lemma SameNamesSameLookup(f: Factory, g: Factory, item: string)
    requires |f.qualities| == |g.qualities|
    requires forall j | 0 <= j < |f.qualities| :: g.qualities[j].name == f.qualities[j].name
    ensures GetAttr(g, item) == GetAttr(f, item)
  {
    var a, b := GetAttr(f, item), GetAttr(g, item);
    if a.Ok? && b.Ok? {
      assert g.qualities[a.value].name == item;
      assert f.qualities[b.value].name == item;
    }
  }

  /** Every record of the configuration yields a loaded quality. */
  lemma {:induction false} LoadedContains(data: Data, i: nat, rec: Record)
    requires LoadRecords(data).Ok? && i < |data| && rec in data[i].1
    ensures FromRecord(rec, data[i].0).Ok?
    ensures FromRecord(rec, data[i].0).value in LoadRecords(data).value
  {
    if i > 0 {
      assert data[1..][i - 1] == data[i];
      LoadedContains(data[1..], i - 1, rec);
    } else {
      var k :| 0 <= k < |data[0].1| && data[0].1[k] == rec;
      assert FromRecords(data[0].1, data[0].0).value[k] == FromRecord(rec, data[0].0).value;
    }
  }

  /** Once a factory is built, every quality its configuration names can be
      looked up by that name. */
  lemma LookupAfterLoad(data: Data, i: nat, rec: Record, item: string)
    requires LoadRecords(data).Ok? && i < |data| && rec in data[i].1
    requires "name" in rec && rec["name"] == JStr(item)
    ensures GetAttr(Factory(LoadRecords(data).value, [], None), item).Ok?
  {
    LoadedContains(data, i, rec);
    var qs := LoadRecords(data).value;
    var k :| 0 <= k < |qs| && qs[k] == FromRecord(rec, data[i].0).value;
    NamedIsFound(Factory(qs, [], None), k, item);
  }

  /** A quality that is present is found. */
  lemma NamedIsFound(f: Factory, k: nat, item: string)
    requires k < |f.qualities| && f.qualities[k].name == item
    ensures GetAttr(f, item).Ok?
  {
  }
}

=== FILE: python.dfy ===
/**
  The slice of Python the spell code leans on: the exceptions it can raise,
  truthiness, `str(int)`, `str.replace` with a one-character pattern,
  ASCII `str.lower`, list filters, `sum` over a list comprehension whose
  items may raise, and the already-parsed JSON records the loaders consume.
 */
module Py {

  /** The exceptions the modelled code can raise.
      `Unmodelled` marks an outcome the model deliberately does not compute
      (a power with a non-integral exponent, whose value is irrational in general). */
  datatype Error =
    | KeyError
    | IndexError
    | TypeError
    | ValueError
    | ZeroDivisionError
    | AttributeError
    | SyntaxError
    | Unmodelled

  /** A value or the exception raised while computing it. */
  datatype Result<+T> = Ok(value: T) | Err(error: Error) {
    predicate IsFailure() {
      Err?
    }

    function PropagateFailure<U>(): Result<U>
      requires Err?
    {
      Err(error)
    }

    function Extract(): T
      requires Ok?
    {
      value
    }
  }

  /** An attribute that may hold `None`. */
  datatype Option<+T> = None | Some(value: T)

  /** Python truthiness of an optional string: `None` and `""` are falsy. */
  predicate TruthyStr(s: Option<string>) {
    s.Some? && |s.value| > 0
  }

  /** Python truthiness of an optional int: `None` and `0` are falsy. */
  predicate TruthyInt(v: Option<int>) {
    v.Some? && v.value != 0
  }

  // ---------------------------------------------------------------------------
  // str(int) and its inverse

  predicate IsDigit(c: char) {
    '0' <= c <= '9'
  }

  function DigitChar(d: nat): (c: char)
    requires d < 10
    ensures IsDigit(c) && (c as int) - ('0' as int) == d
  {
    (d + '0' as int) as char
  }

  /** Decimal text of a natural number, most significant digit first, no leading zero. */
  function NatToStr(n: nat): (r: string)
    ensures |r| >= 1
    ensures forall k | 0 <= k < |r| :: IsDigit(r[k])
    ensures r[0] == '0' ==> n == 0
  {
    if n < 10 then [DigitChar(n)] else NatToStr(n / 10) + [DigitChar(n % 10)]
  }

  /** The last digit comes off the end. */
  lemma NatToStrStep(n: nat)
    requires n >= 10
    ensures NatToStr(n) == NatToStr(n / 10) + [DigitChar(n % 10)]
  {
  }

  /** `str(i)` for a Python int: a leading '-' for negative values. */
  function IntToStr(i: int): (r: string)
    ensures |r| >= 1
    ensures forall k | 0 <= k < |r| :: IsDigit(r[k]) || r[k] == '-'
    ensures (r[0] == '-') <==> i < 0
  {
    if i < 0 then "-" + NatToStr(-i) else NatToStr(i)
  }

  /** The value of a run of decimal digits (a reference reading, independent of NatToStr). */
  function DigitsValue(s: string): nat
    requires forall k | 0 <= k < |s| :: IsDigit(s[k])
  {
    if |s| == 0 then 0
    else
      assert IsDigit(s[|s| - 1]);
      DigitsValue(s[..|s| - 1]) * 10 + ((s[|s| - 1] as int) - ('0' as int))
  }

  /** Reads back an optionally signed decimal integer; None for anything else. */
  function ParseInt(s: string): Option<int> {
    if |s| > 0 && s[0] == '-' then
      if |s| > 1 && forall k | 1 <= k < |s| :: IsDigit(s[k]) then Some(-(DigitsValue(s[1..]) as int)) else None
    else if |s| > 0 && forall k | 0 <= k < |s| :: IsDigit(s[k]) then Some(DigitsValue(s))
    else None
  }

  lemma {:induction false} NatToStrValue(n: nat)
    ensures DigitsValue(NatToStr(n)) == n
  {
    if n >= 10 {
      var s := NatToStr(n);
      assert s[..|s| - 1] == NatToStr(n / 10);
      NatToStrValue(n / 10);
    }
  }

  /** `str` is inverted by reading the text back: the decimal text loses nothing. */
  lemma IntToStrRoundTrip(i: int)
    ensures ParseInt(IntToStr(i)) == Some(i)
  {
    if i < 0 {
      NegativeText(-i);
    } else {
      NatToStrValue(i);
      NatToStrIsDigits(i);
    }
  }

  /** The text of a natural number reads back as that number. */
  lemma NatToStrIsDigits(n: nat)
    ensures ParseInt(NatToStr(n)) == Some(n)
  {
    var t := NatToStr(n);
    assert t[0] != '-' by { assert IsDigit(t[0]); }
    NatToStrValue(n);
  }

  /** The text of a negative number reads back as that number. */
  lemma NegativeText(n: nat)
    requires n > 0
    ensures ParseInt("-" + NatToStr(n)) == Some(-(n as int))
  {
    var t := NatToStr(n);
    var s := "-" + t;
    assert s[1..] == t;
    assert forall k | 1 <= k < |s| :: IsDigit(s[k]) by {
      forall k | 1 <= k < |s|
        ensures IsDigit(s[k])
      {
        assert s[k] == t[k - 1];
      }
    }
    NatToStrValue(n);
  }

  // ---------------------------------------------------------------------------
  // str.replace with a one-character pattern

  /** `s.replace(pat, rep)` where `pat` is a single character. */
  function Replace(s: string, pat: char, rep: string): string {
    if |s| == 0 then ""
    else (if s[0] == pat then rep else [s[0]]) + Replace(s[1..], pat, rep)
  }

  /** Every character of the result comes from the replacement or is a kept
      character of the original; so a replacement free of `pat` removes it,
      and a text without `pat` is returned as it was. */
  lemma {:induction false} ReplaceKeeps(s: string, pat: char, rep: string)
    ensures forall k | 0 <= k < |Replace(s, pat, rep)| ::
      Replace(s, pat, rep)[k] in rep || (Replace(s, pat, rep)[k] in s && Replace(s, pat, rep)[k] != pat)
    ensures pat !in rep ==> pat !in Replace(s, pat, rep)
    ensures pat !in s ==> Replace(s, pat, rep) == s
  {
    if |s| > 0 {
      ReplaceKeeps(s[1..], pat, rep);
      var head := if s[0] == pat then rep else [s[0]];
      var r := Replace(s, pat, rep);
      assert r == head + Replace(s[1..], pat, rep);
      forall k | 0 <= k < |r|
        ensures r[k] in rep || (r[k] in s && r[k] != pat)
      {
        if k >= |head| {
          var c := Replace(s[1..], pat, rep)[k - |head|];
          assert r[k] == c;
          assert c in s[1..] ==> c in s;
        }
      }
      if pat !in s {
        assert pat !in s[1..];
      }
    }
  }

  /** `s.split(sep)` for a one-character separator: always at least one piece. */
  function Split(s: string, sep: char): (r: seq<string>)
    ensures |r| >= 1
    ensures forall k | 0 <= k < |r| :: sep !in r[k]
  {
    if |s| == 0 then [""]
    else
      var rest := Split(s[1..], sep);
      if s[0] == sep then [""] + rest
      else [[s[0]] + rest[0]] + rest[1..]
  }

  /** `sep.join(pieces)`. */
  function Join(pieces: seq<string>, sep: string): string {
    if |pieces| == 0 then ""
    else if |pieces| == 1 then pieces[0]
    else pieces[0] + sep + Join(pieces[1..], sep)
  }

  lemma {:induction false} JoinConsHead(c: char, pieces: seq<string>, sep: string)
    requires |pieces| >= 1
    ensures Join([[c] + pieces[0]] + pieces[1..], sep) == [c] + Join(pieces, sep)
  {
    var ps := [[c] + pieces[0]] + pieces[1..];
    if |pieces| > 1 {
      assert ps[1..] == pieces[1..];
    }
  }

  /** `str.replace` of a character is equivalent to splitting on it and joining
      with the replacement. */
  lemma {:induction false} ReplaceIsSplitJoin(s: string, pat: char, rep: string)
    ensures Replace(s, pat, rep) == Join(Split(s, pat), rep)
  {
    if |s| > 0 {
      var rest := Split(s[1..], pat);
      ReplaceIsSplitJoin(s[1..], pat, rep);
      if s[0] == pat {
        assert ([""] + rest)[1..] == rest;
      } else {
        JoinConsHead(s[0], rest, rep);
      }
    }
  }

  /** Number of occurrences of `c` in `s`. */
  function CountChar(s: string, c: char): nat {
    if |s| == 0 then 0 else (if s[0] == c then 1 else 0) + CountChar(s[1..], c)
  }

  /** Each occurrence grows the text by the length difference of the replacement. */
  lemma {:induction false} ReplaceLength(s: string, pat: char, rep: string)
    ensures |Replace(s, pat, rep)| == |s| + CountChar(s, pat) * (|rep| - 1)
  {
    if |s| > 0 {
      ReplaceLength(s[1..], pat, rep);
      var n := CountChar(s[1..], pat);
      var m := |rep| - 1;
      var tail := |Replace(s[1..], pat, rep)|;
      if s[0] == pat {
        assert |Replace(s, pat, rep)| == |rep| + tail;
        MulSucc(n, m);
      } else {
        assert |Replace(s, pat, rep)| == 1 + tail;
      }
    }
  }

  lemma MulSucc(n: int, m: int)
    ensures (n + 1) * m == n * m + m
  {
  }

  /** Once the pattern occurs, every character of the replacement shows up in the result. */
  lemma {:induction false} ReplaceShowsReplacement(s: string, pat: char, rep: string)
    ensures pat in s ==> forall c | c in rep :: c in Replace(s, pat, rep)
  {
    if |s| > 0 && s[0] != pat {
      ReplaceShowsReplacement(s[1..], pat, rep);
    }
  }

  // ---------------------------------------------------------------------------
  // str.lower, restricted to ASCII

  function LowerChar(c: char): char {
    if 'A' <= c <= 'Z' then (c as int + 32) as char else c
  }

  /** `s.lower()` with ASCII case folding. */
  function Lower(s: string): (r: string)
    ensures |r| == |s|
    ensures forall k | 0 <= k < |r| :: r[k] == LowerChar(s[k]) && !('A' <= r[k] <= 'Z')
  {
    if |s| == 0 then "" else [LowerChar(s[0])] + Lower(s[1..])
  }

  /** Case-insensitive comparison, as `a.lower() == b.lower()`. */
  predicate SameIgnoringCase(a: string, b: string) {
    Lower(a) == Lower(b)
  }

  // ---------------------------------------------------------------------------
  // sum([f(x) for x in items]) where f may raise

  /** The list comprehension raises the first exception in list order;
      otherwise `sum` adds the values, starting from 0. */
  function SumResults(ds: seq<Result<int>>): (r: Result<int>)
    ensures r.Ok? <==> forall k | 0 <= k < |ds| :: ds[k].Ok?
    ensures r.Err? ==> exists k | 0 <= k < |ds| :: ds[k] == Err(r.error) && forall j | 0 <= j < k :: ds[j].Ok?
  {
    if |ds| == 0 then Ok(0)
    else
      var d :- ds[0];
      var rest :- SumResults(ds[1..]);
      Ok(d + rest)
  }

  /** Appending one more item: the sum grows by its value, or its exception surfaces
      once everything before it succeeded. */
  lemma {:induction false} SumResultsAppend(ds: seq<Result<int>>, d: Result<int>)
    ensures SumResults(ds + [d]) == (var a :- SumResults(ds); var b :- d; Ok(a + b))
  {
    if |ds| == 0 {
      assert ds + [d] == [d];
    } else {
      assert (ds + [d])[1..] == ds[1..] + [d];
      SumResultsAppend(ds[1..], d);
    }
  }

  /** Number of true flags. */
  function CountTrue(flags: seq<bool>): nat {
    if |flags| == 0 then 0 else (if flags[0] then 1 else 0) + CountTrue(flags[1..])
  }

  /** Number of times reference `i` occurs in a list of references. */
  function Occurrences(refs: seq<nat>, i: nat): nat {
    CountTrue(seq(|refs|, k requires 0 <= k < |refs| => refs[k] == i))
  }

  /** When the items flagged in `hit` each grow by `delta` and nothing fails,
      the sum grows by `delta` once per flagged item. */
  lemma {:induction false} SumResultsShift(ds: seq<Result<int>>, es: seq<Result<int>>, hit: seq<bool>, delta: int)
    requires |ds| == |es| == |hit|
    requires forall k | 0 <= k < |ds| :: ds[k].Ok? && es[k].Ok?
    requires forall k | 0 <= k < |ds| :: es[k].value == ds[k].value + (if hit[k] then delta else 0)
    ensures SumResults(ds).Ok? && SumResults(es).Ok?
    ensures SumResults(es).value == SumResults(ds).value + CountTrue(hit) * delta
  {
    if |ds| > 0 {
      assert forall k | 0 <= k < |ds| - 1 :: ds[1..][k] == ds[k + 1] && es[1..][k] == es[k + 1] && hit[1..][k] == hit[k + 1];
      SumResultsShift(ds[1..], es[1..], hit[1..], delta);
      var c := CountTrue(hit[1..]);
      assert SumResults(ds).value == ds[0].value + SumResults(ds[1..]).value;
      assert SumResults(es).value == es[0].value + SumResults(es[1..]).value;
      if hit[0] {
        MulSucc(c, delta);
      }
    }
  }

  /** When only the items at references to `i` change, from `before` to `after`,
      the sum moves by that change once per such reference. */
  lemma SumShiftAt(ds: seq<Result<int>>, es: seq<Result<int>>, refs: seq<nat>, i: nat, before: int, after: int)
    requires |ds| == |es| == |refs|
    requires SumResults(ds).Ok?
    requires forall k | 0 <= k < |refs| :: if refs[k] == i then ds[k] == Ok(before) && es[k] == Ok(after) else es[k] == ds[k]
    ensures SumResults(es) == Ok(SumResults(ds).value + Occurrences(refs, i) * (after - before))
  {
    var hit := seq(|refs|, k requires 0 <= k < |refs| => refs[k] == i);
    SumResultsShift(ds, es, hit, after - before);
  }

  /** `[f(items[j]) for j in refs]`: an attribute read through a list of
      references into a shared list of objects. */
  function Gather<T>(f: T -> Result<int>, items: seq<T>, refs: seq<nat>): (r: seq<Result<int>>)
    requires forall k | 0 <= k < |refs| :: refs[k] < |items|
    ensures |r| == |refs|
    ensures forall k | 0 <= k < |refs| :: r[k] == f(items[refs[k]])
  {
    seq(|refs|, k requires 0 <= k < |refs| => f(items[refs[k]]))
  }

  /** One more reference gathers one more value. */
  lemma GatherSnoc<T>(f: T -> Result<int>, items: seq<T>, refs: seq<nat>, i: nat)
    requires forall k | 0 <= k < |refs| :: refs[k] < |items|
    requires i < |items|
    ensures forall k | 0 <= k < |refs + [i]| :: (refs + [i])[k] < |items|
    ensures Gather(f, items, refs + [i]) == Gather(f, items, refs) + [f(items[i])]
  {
  }

  /** One more reference adds its value to the gathered sum. */
  lemma GatherSnocSum<T>(f: T -> Result<int>, items: seq<T>, refs: seq<nat>, i: nat)
    requires forall k | 0 <= k < |refs| :: refs[k] < |items|
    requires i < |items|
    ensures forall k | 0 <= k < |refs + [i]| :: (refs + [i])[k] < |items|
    ensures SumResults(Gather(f, items, refs + [i])) ==
      (var a :- SumResults(Gather(f, items, refs)); var b :- f(items[i]); Ok(a + b))
  {
    GatherSnoc(f, items, refs, i);
    SumResultsAppend(Gather(f, items, refs), f(items[i]));
  }

  /** Replacing the object at `i`, whose value moves from `before` to `after`,
      moves the sum over `refs` by that change once per reference to it;
      nothing else moves. */
  lemma GatherReplaceShift<T>(f: T -> Result<int>, items: seq<T>, items': seq<T>, refs: seq<nat>, i: nat, before: int, after: int)
    requires forall k | 0 <= k < |refs| :: refs[k] < |items|
    requires i < |items| == |items'|
    requires forall j | 0 <= j < |items| && j != i :: items'[j] == items[j]
    requires SumResults(Gather(f, items, refs)).Ok?
    requires f(items[i]) == Ok(before) && f(items'[i]) == Ok(after)
    ensures forall k | 0 <= k < |refs| :: refs[k] < |items'|
    ensures SumResults(Gather(f, items', refs)) ==
      Ok(SumResults(Gather(f, items, refs)).value + Occurrences(refs, i) * (after - before))
  {
    var ds, es := Gather(f, items, refs), Gather(f, items', refs);
    forall k | 0 <= k < |refs|
      ensures if refs[k] == i then ds[k] == Ok(before) && es[k] == Ok(after) else es[k] == ds[k]
    {
    }
    SumShiftAt(ds, es, refs, i, before, after);
  }

  // ---------------------------------------------------------------------------
  // Filters over lists

  /** `[e for e in s if p(e)]`. */
  function Filter<T>(s: seq<T>, p: T -> bool): (r: seq<T>)
    ensures |r| <= |s|
  {
    if |s| == 0 then []
    else
      var rest := Filter(s[1..], p);
      if p(s[0]) then [s[0]] + rest else rest
  }

  /** The filter keeps exactly the elements `p` holds of. */
  lemma {:induction false} FilterMembers<T>(s: seq<T>, p: T -> bool)
    ensures forall k | 0 <= k < |Filter(s, p)| :: p(Filter(s, p)[k]) && Filter(s, p)[k] in s
    ensures forall k | 0 <= k < |s| && p(s[k]) :: s[k] in Filter(s, p)
  {
    if |s| > 0 {
      FilterMembers(s[1..], p);
      var rest := Filter(s[1..], p);
      var r := Filter(s, p);
      forall k | 0 <= k < |r|
        ensures p(r[k]) && r[k] in s
      {
        if p(s[0]) && k == 0 {
          assert r[k] == s[0];
        } else {
          var j := if p(s[0]) then k - 1 else k;
          assert r[k] == rest[j];
          assert rest[j] in s[1..];
        }
      }
      forall k | 0 <= k < |s| && p(s[k])
        ensures s[k] in r
      {
        if k > 0 {
          assert s[k] == s[1..][k - 1];
        }
      }
    }
  }

  /** A filter that everything passes keeps the list. */
  lemma {:induction false} FilterAll<T>(s: seq<T>, p: T -> bool)
    requires forall k | 0 <= k < |s| :: p(s[k])
    ensures Filter(s, p) == s
  {
    if |s| > 0 {
      assert forall k | 0 <= k < |s[1..]| :: p(s[1..][k]) by {
        assert forall k | 0 <= k < |s[1..]| :: s[1..][k] == s[k + 1];
      }
      FilterAll(s[1..], p);
      assert Filter(s, p) == [s[0]] + s[1..];
      assert [s[0]] + s[1..] == s;
    }
  }

  /** A filter that nothing passes empties the list. */
  lemma {:induction false} FilterNone<T>(s: seq<T>, p: T -> bool)
    requires forall k | 0 <= k < |s| :: !p(s[k])
    ensures Filter(s, p) == []
  {
    if |s| > 0 {
      assert forall k | 0 <= k < |s[1..]| :: !p(s[1..][k]) by {
        assert forall k | 0 <= k < |s[1..]| :: s[1..][k] == s[k + 1];
      }
      FilterNone(s[1..], p);
      assert !p(s[0]);
    }
  }

  /** Filtering distributes over concatenation. */
  lemma {:induction false} FilterConcat<T>(a: seq<T>, b: seq<T>, p: T -> bool)
    ensures Filter(a + b, p) == Filter(a, p) + Filter(b, p)
  {
    if |a| == 0 {
      assert a + b == b;
    } else {
      var ab := a + b;
      assert ab[0] == a[0];
      assert ab[1..] == a[1..] + b;
      FilterConcat(a[1..], b, p);
      var rest := Filter(a[1..], p) + Filter(b, p);
      assert Filter(ab, p) == (if p(a[0]) then [a[0]] + rest else rest);
      assert Filter(a, p) == (if p(a[0]) then [a[0]] + Filter(a[1..], p) else Filter(a[1..], p));
    }
  }

  /** Predicates that agree on every element keep the same elements. */
  lemma {:induction false} FilterAgree<T>(s: seq<T>, p: T -> bool, q: T -> bool)
    requires forall k | 0 <= k < |s| :: p(s[k]) == q(s[k])
    ensures Filter(s, p) == Filter(s, q)
  {
    if |s| > 0 {
      FilterAgree(s[1..], p, q);
    }
  }

  /** `[i for i, e in enumerate(s) if p(e)]`: the positions a filter keeps, ascending. */
  function IndicesWhere<T>(s: seq<T>, p: T -> bool): (r: seq<nat>)
    ensures forall k | 0 <= k < |r| :: r[k] < |s| && p(s[r[k]])
    ensures forall i | 0 <= i < |s| && p(s[i]) :: i in r
    ensures forall a, b | 0 <= a < b < |r| :: r[a] < r[b]
  {
    if |s| == 0 then []
    else IndicesWhere(s[..|s| - 1], p) + (if p(s[|s| - 1]) then [|s| - 1] else [])
  }

  /** Predicates that agree on every element keep the same positions. */
  lemma {:induction false} IndicesWhereAgree<T>(s: seq<T>, p: T -> bool, q: T -> bool)
    requires forall k | 0 <= k < |s| :: p(s[k]) == q(s[k])
    ensures IndicesWhere(s, p) == IndicesWhere(s, q)
  {
    if |s| > 0 {
      IndicesWhereAgree(s[..|s| - 1], p, q);
    }
  }

  /** The position of the first element `p` holds of (`[i for ... if p][0]`),
      or None when there is none. */
  function FirstWhere<T>(s: seq<T>, p: T -> bool): (r: Option<nat>)
    ensures r.Some? ==> r.value < |s| && p(s[r.value])
    ensures r.Some? ==> forall j | 0 <= j < r.value :: !p(s[j])
    ensures r.None? <==> forall j | 0 <= j < |s| :: !p(s[j])
    ensures r.Some? <==> |IndicesWhere(s, p)| > 0
    ensures r.Some? ==> r.value == IndicesWhere(s, p)[0]
  {
    var hits := IndicesWhere(s, p);
    FirstIndexWhere(s, p);
    if |hits| == 0 then None else Some(hits[0])
  }

  /** The first kept position is the first position the predicate holds at. */
  lemma FirstIndexWhere<T>(s: seq<T>, p: T -> bool)
    ensures |IndicesWhere(s, p)| > 0 <==> exists i | 0 <= i < |s| :: p(s[i])
    ensures |IndicesWhere(s, p)| > 0 ==> forall j | 0 <= j < IndicesWhere(s, p)[0] :: !p(s[j])
  {
  }

  // ---------------------------------------------------------------------------
  // Already-parsed JSON input

  /** A JSON scalar as `json.loads` yields it; `JOther` stands for lists, objects,
      floats and booleans, which no record field of this code expects. */
  datatype Json = JStr(s: string) | JInt(i: int) | JNull | JOther

  /** One record, passed to a dataclass constructor as keyword arguments. */
  type Record = map<string, Json>

  /** A dict from category key to its list of records, in insertion order. */
  type Data = seq<(string, seq<Record>)>

  /** Python dict keys are unique. */
  predicate DistinctKeys(d: Data) {
    forall i, j | 0 <= i < j < |d| :: d[i].0 != d[j].0
  }

  function Keys(d: Data): (r: seq<string>)
    ensures |r| == |d|
    ensures forall k | 0 <= k < |d| :: r[k] == d[k].0
  {
    if |d| == 0 then [] else [d[0].0] + Keys(d[1..])
  }

  /** `d[key]`: the records under `key`, or KeyError. */
  function DictGet(d: Data, key: string): (r: Result<seq<Record>>)
    ensures r.Ok? <==> key in Keys(d)
    ensures r.Err? ==> r.error == KeyError
    ensures r.Ok? ==> exists k | 0 <= k < |d| :: d[k] == (key, r.value)
  {
    if |d| == 0 then Err(KeyError)
    else if d[0].0 == key then Ok(d[0].1)
    else DictGet(d[1..], key)
  }

  /** Distinct keys: the first key does not come back later. */
  lemma HeadKey(data: Data)
    requires |data| > 0 && DistinctKeys(data)
    ensures data[0].0 !in Keys(data[1..])
    ensures DictGet(data, data[0].0) == Ok(data[0].1)
  {
    assert forall k | 0 <= k < |data[1..]| :: data[1..][k].0 != data[0].0 by {
      assert forall k | 1 <= k < |data| :: data[k].0 != data[0].0;
    }
  }

  /** Distinct keys stay distinct in the rest. */
  lemma DistinctTail(data: Data)
    requires |data| > 0 && DistinctKeys(data)
    ensures DistinctKeys(data[1..])
  {
    forall i, j | 0 <= i < j < |data[1..]|
      ensures data[1..][i].0 != data[1..][j].0
    {
      assert data[1..][i] == data[i + 1] && data[1..][j] == data[j + 1];
    }
  }

  /** A key other than the first is looked up in the rest. */
  lemma TailKey(data: Data, key: string)
    requires |data| > 0 && key in Keys(data) && key != data[0].0
    ensures key in Keys(data[1..])
    ensures DictGet(data, key) == DictGet(data[1..], key)
  {
    var i :| 0 <= i < |data| && data[i].0 == key;
    assert data[1..][i - 1].0 == key;
  }

  /** A dataclass keyword argument typed `str`, defaulting to None: absent or null
      gives None; a non-string value is rejected (see the model's left-out notes). */
  function OptStrField(r: Record, key: string): (v: Result<Option<string>>)
    ensures key !in r ==> v == Ok(None)
    ensures v.Ok? && v.value.Some? ==> key in r && r[key] == JStr(v.value.value)
  {
    if key !in r then Ok(None)
    else match r[key]
      case JNull => Ok(None)
      case JStr(s) => Ok(Some(s))
      case _ => Err(TypeError)
  }

  /** A required `str` keyword argument: missing gives TypeError. */
  function StrField(r: Record, key: string): (v: Result<string>)
    ensures v.Ok? <==> key in r && r[key].JStr?
    ensures v.Ok? ==> r[key] == JStr(v.value)
    ensures v.Err? ==> v.error == TypeError
  {
    if key in r && r[key].JStr? then Ok(r[key].s) else Err(TypeError)
  }

  /** A required `int` keyword argument: missing gives TypeError. */
  function IntField(r: Record, key: string): (v: Result<int>)
    ensures v.Ok? <==> key in r && r[key].JInt?
    ensures v.Ok? ==> r[key] == JInt(v.value)
    ensures v.Err? ==> v.error == TypeError
  {
    if key in r && r[key].JInt? then Ok(r[key].i) else Err(TypeError)
  }
}

=== FILE: qualities.dfy ===
/**
  Qualities and spells of the quality revisions (kbr_char/spells.py and the
  top-level spells.py, whose `Quality` and `Spell` share this logic).

  A quality's `dc` evaluates its formula with `x` substituted, or is `x` itself
  when the formula is falsy. A spell holds references to qualities; the same
  quality object can be held by several spells, so the qualities live in one
  list (the factory's) and spells hold positions in it.
 */
module Qualities {
  import opened Py
  import opened Calc
  import opened Difficulty

  /** A quality. `catagory` keeps the source's spelling. The `_formula`
      scratch copy is not modelled. */
  datatype Quality = Quality(
    name: string,
    x: int,
    spellName: Option<string>,
    desc: Option<string>,
    catagory: Option<string>,
    sub: Option<string>,
    units: Option<string>,
    formula: Option<string>)

  /** `Quality.dc`. */
  function Dc(ev: Evaluator, q: Quality): Result<int> {
    QualityDc(ev, q.formula, q.x)
  }

  // ---------------------------------------------------------------------------
  // Construction from a record

  /** The keyword arguments `Quality(...)` accepts. */
  const QualityFields: set<string> :=
    {"name", "x", "spell_name", "_formula", "desc", "catagory", "sub", "units", "formula"}

  /** The `formula` keyword: absent gives the default "x", null gives None. */
  function FormulaField(rec: Record): (v: Result<Option<string>>)
    ensures "formula" !in rec ==> v == Ok(Some("x"))
    ensures "formula" in rec && rec["formula"] == JNull ==> v == Ok(None)
    ensures v.Ok? && v.value.Some? && "formula" in rec ==> rec["formula"] == JStr(v.value.value)
  {
    if "formula" !in rec then Ok(Some("x")) else OptStrField(rec, "formula")
  }

  /** `Quality(**record, catagory=key)`: a record that itself names `catagory`
      passes that keyword twice, and like an unknown key or a missing `name`
      or `x` raises TypeError. */
  function FromRecord(rec: Record, key: string): (r: Result<Quality>)
    ensures !(rec.Keys <= QualityFields) || "catagory" in rec ==> r == Err(TypeError)
    ensures "name" !in rec || "x" !in rec ==> r == Err(TypeError)
    ensures r.Ok? ==> r.value.catagory == Some(key)
    ensures r.Ok? ==> rec["name"] == JStr(r.value.name) && rec["x"] == JInt(r.value.x)
    ensures r.Ok? && "formula" !in rec ==> r.value.formula == Some("x")
    ensures r.Ok? ==> FormulaField(rec) == Ok(r.value.formula)
    ensures r.Ok? ==> OptStrField(rec, "spell_name") == Ok(r.value.spellName) && OptStrField(rec, "desc") == Ok(r.value.desc)
    ensures r.Ok? ==> OptStrField(rec, "sub") == Ok(r.value.sub) && OptStrField(rec, "units") == Ok(r.value.units)
    ensures r.Ok? ==> OptStrField(rec, "_formula").Ok?
    ensures r.Err? ==> r.error == TypeError
  {
    if !(rec.Keys <= QualityFields) || "catagory" in rec then Err(TypeError)
    else
      var name :- StrField(rec, "name");
      var x :- IntField(rec, "x");
      var spellName :- OptStrField(rec, "spell_name");
      var _ :- OptStrField(rec, "_formula");
      var desc :- OptStrField(rec, "desc");
      var sub :- OptStrField(rec, "sub");
      var units :- OptStrField(rec, "units");
      var formula :- FormulaField(rec);
      Ok(Quality(name, x, spellName, desc, Some(key), sub, units, formula))
  }

  /** A record that yields `q` back: the fields that are set, a null formula
      when the formula is None, and no `catagory` (the loader supplies it). */
  function ToRecord(q: Quality): (rec: Record)
    ensures rec.Keys <= QualityFields && "catagory" !in rec
  {
    var base := map["name" := JStr(q.name), "x" := JInt(q.x),
                    "formula" := if q.formula.Some? then JStr(q.formula.value) else JNull];
    Put(Put(Put(Put(base, "spell_name", q.spellName), "desc", q.desc), "sub", q.sub), "units", q.units)
  }

  /** The record with `key` set to a string when there is one. */
  function Put(rec: Record, key: string, v: Option<string>): (r: Record)
    ensures r.Keys == if v.Some? then rec.Keys + {key} else rec.Keys
  {
    if v.Some? then rec[key := JStr(v.value)] else rec
  }

  /** Every quality comes back from its record under its own category. */
  lemma FromToRecord(q: Quality)
    requires q.catagory.Some?
    ensures FromRecord(ToRecord(q), q.catagory.value) == Ok(q)
  {
    ToRecordReads(q);
  }

  /** What each keyword reads from the record of `q`. */
  lemma ToRecordReads(q: Quality)
    ensures StrField(ToRecord(q), "name") == Ok(q.name)
    ensures IntField(ToRecord(q), "x") == Ok(q.x)
    ensures OptStrField(ToRecord(q), "_formula") == Ok(None)
    ensures FormulaField(ToRecord(q)) == Ok(q.formula)
    ensures OptStrField(ToRecord(q), "spell_name") == Ok(q.spellName)
    ensures OptStrField(ToRecord(q), "desc") == Ok(q.desc)
    ensures OptStrField(ToRecord(q), "sub") == Ok(q.sub)
    ensures OptStrField(ToRecord(q), "units") == Ok(q.units)
  {
    RequiredReads(q);
  }

  /** The keywords every record of a quality carries. */
  lemma RequiredReads(q: Quality)
    ensures StrField(ToRecord(q), "name") == Ok(q.name)
    ensures IntField(ToRecord(q), "x") == Ok(q.x)
    ensures OptStrField(ToRecord(q), "_formula") == Ok(None)
    ensures FormulaField(ToRecord(q)) == Ok(q.formula)
  {
    var rec := ToRecord(q);
    assert rec["name"] == JStr(q.name) && rec["x"] == JInt(q.x);
  }

  /** `[Quality(**q, catagory=key) for q in records]`: the first bad record raises. */
  function FromRecords(rs: seq<Record>, key: string): (r: Result<seq<Quality>>)
    ensures r.Ok? <==> forall k | 0 <= k < |rs| :: FromRecord(rs[k], key).Ok?
    ensures r.Ok? ==> |r.value| == |rs|
    ensures r.Ok? ==> forall k | 0 <= k < |rs| :: r.value[k] == FromRecord(rs[k], key).value
    ensures r.Err? ==> r.error == TypeError
  {
    if |rs| == 0 then Ok([])
    else
      var q :- FromRecord(rs[0], key);
      var rest :- FromRecords(rs[1..], key);
      Ok([q] + rest)
  }

  /** The qualities of every category in turn, tagged with their category. */
  function LoadRecords(data: Data): (r: Result<seq<Quality>>)
    ensures r.Ok? ==> forall k | 0 <= k < |r.value| ::
      r.value[k].catagory.Some? && r.value[k].catagory.value in Keys(data)
    ensures r.Err? ==> r.error == TypeError
  {
    if |data| == 0 then Ok([])
    else
      var first :- FromRecords(data[0].1, data[0].0);
      var rest :- LoadRecords(data[1..]);
      assert forall k | 0 <= k < |rest| :: rest[k].catagory.value in Keys(data) by {
        assert forall key | key in Keys(data[1..]) :: key in Keys(data);
      }
      Ok(first + rest)
  }

  /** A quality of category `key`. */
  function InCategory(key: string): Quality -> bool {
    (q: Quality) => q.catagory == Some(key)
  }

  /** With distinct category keys, the qualities loaded under a key are exactly
      that key's records, in order. */
  lemma {:induction false} LoadByCategory(data: Data, key: string)
    requires DistinctKeys(data)
    requires LoadRecords(data).Ok?
    requires key in Keys(data)
    ensures DictGet(data, key).Ok? && FromRecords(DictGet(data, key).value, key).Ok?
    ensures Filter(LoadRecords(data).value, InCategory(key)) == FromRecords(DictGet(data, key).value, key).value
  {
    LoadRecordsCons(data);
    var first := FromRecords(data[0].1, data[0].0).value;
    var rest := LoadRecords(data[1..]).value;
    FilterConcat(first, rest, InCategory(key));
    if data[0].0 == key {
      HeadKey(data);
      FilterAll(first, InCategory(key));
      FilterNone(rest, InCategory(key));
    } else {
      FilterNone(first, InCategory(key));
      TailKey(data, key);
      DistinctTail(data);
      LoadByCategory(data[1..], key);
    }
  }

  /** Loading a non-empty input loads the first category, then the rest. */
  lemma LoadRecordsCons(data: Data)
    requires |data| > 0 && LoadRecords(data).Ok?
    ensures FromRecords(data[0].1, data[0].0).Ok? && LoadRecords(data[1..]).Ok?
    ensures LoadRecords(data).value == FromRecords(data[0].1, data[0].0).value + LoadRecords(data[1..]).value
    ensures forall k | 0 <= k < |FromRecords(data[0].1, data[0].0).value| ::
      FromRecords(data[0].1, data[0].0).value[k].catagory == Some(data[0].0)
  {
  }

  // ---------------------------------------------------------------------------
  // Spells

  /** A spell: a name, references to qualities (duplicates allowed) and the
      `_dc` accumulator the `dc` property leaves behind. */
  datatype Spell = Spell(name: string, qualities: seq<nat>, dc: int)

  /** `Spell(name)`. */
  function NewSpell(name: string): Spell {
    Spell(name, [], 0)
  }

  /** Every reference of a spell points into the quality list. */
  predicate ValidRefs(qs: seq<Quality>, refs: seq<nat>) {
    forall k | 0 <= k < |refs| :: refs[k] < |qs|
  }

  /** The `dc` of each referenced quality, in order. */
  function Dcs(ev: Evaluator, qs: seq<Quality>, refs: seq<nat>): (r: seq<Result<int>>)
    requires ValidRefs(qs, refs)
    ensures |r| == |refs|
  {
    Gather((q: Quality) => Dc(ev, q), qs, refs)
  }

  /** `Spell.dc`: resets `_dc` to 0 and adds each quality's `dc` in turn. An
      exception from a quality leaves `_dc` at the sum of the qualities before it. */
  method SpellDc(ev: Evaluator, qs: seq<Quality>, s: Spell) returns (r: Result<int>, s': Spell)
    requires ValidRefs(qs, s.qualities)
    ensures r == SumResults(Dcs(ev, qs, s.qualities))
    ensures s'.name == s.name && s'.qualities == s.qualities
    ensures r.Ok? ==> s'.dc == r.value
    ensures r.Err? ==> exists k | 0 <= k < |s.qualities| ::
      && Dc(ev, qs[s.qualities[k]]) == Err(r.error)
      && SumResults(Dcs(ev, qs, s.qualities)[..k]) == Ok(s'.dc)
  {
    var acc;
    r, acc := Accumulate(Dcs(ev, qs, s.qualities));
    s' := s.(dc := acc);
  }

  /** The accumulation loop: `acc` starts at 0 and each value is added in turn;
      the first exception stops it with `acc` at the sum so far. */
  method Accumulate(ds: seq<Result<int>>) returns (r: Result<int>, acc: int)
    ensures r == SumResults(ds)
    ensures r.Ok? ==> acc == r.value
    ensures r.Err? ==> exists k | 0 <= k < |ds| :: ds[k] == Err(r.error) && SumResults(ds[..k]) == Ok(acc)
  {
    acc := 0;
    var i := 0;
    while i < |ds|
      invariant 0 <= i <= |ds|
      invariant forall j | 0 <= j < i :: ds[j].Ok?
      invariant SumResults(ds[..i]) == Ok(acc)
    {
      var d := ds[i];
      if d.Err? {
        FirstFailure(ds, i);
        return Err(d.error), acc;
      }
      PrefixSumStep(ds, i, acc);
      acc := acc + d.value;
      i := i + 1;
    }
    assert ds[..i] == ds;
    return Ok(acc), acc;
  }

  /** One more successful item adds its value to the running sum. */
  lemma PrefixSumStep(ds: seq<Result<int>>, i: nat, acc: int)
    requires i < |ds| && ds[i].Ok?
    requires SumResults(ds[..i]) == Ok(acc)
    ensures SumResults(ds[..i + 1]) == Ok(acc + ds[i].value)
  {
    assert ds[..i + 1] == ds[..i] + [ds[i]];
    SumResultsAppend(ds[..i], ds[i]);
  }

  /** The sum raises the error of the first failing item. */
  lemma FirstFailure(ds: seq<Result<int>>, i: nat)
    requires i < |ds| && ds[i].Err?
    requires forall j | 0 <= j < i :: ds[j].Ok?
    ensures SumResults(ds) == Err(ds[i].error)
  {
    var r := SumResults(ds);
    var k :| 0 <= k < |ds| && ds[k] == Err(r.error) && forall j | 0 <= j < k :: ds[j].Ok?;
    assert !(k < i) && !(i < k);
  }

  /** `add_quality(quality, value)`: a truthy value (not None, not 0) overwrites
      the shared quality's `x` in place; the reference is appended either way. */
  function AddQuality(qs: seq<Quality>, s: Spell, qi: nat, value: Option<int>): (r: (seq<Quality>, Spell))
    requires qi < |qs|
    ensures |r.0| == |qs|
    ensures forall j | 0 <= j < |qs| && j != qi :: r.0[j] == qs[j]
    ensures r.0[qi] == (if TruthyInt(value) then qs[qi].(x := value.value) else qs[qi])
    ensures r.1 == s.(qualities := s.qualities + [qi])
  {
    var qs' := if TruthyInt(value) then qs[qi := qs[qi].(x := value.value)] else qs;
    (qs', s.(qualities := s.qualities + [qi]))
  }

  /** Adding a quality to a spell adds that quality's (possibly updated) `dc`
      to the spell's. */
  lemma AddQualityDc(ev: Evaluator, qs: seq<Quality>, s: Spell, qi: nat, value: Option<int>)
    requires qi < |qs| && ValidRefs(qs, s.qualities)
    requires !TruthyInt(value) || qi !in s.qualities
    ensures var (qs', s') := AddQuality(qs, s, qi, value);
      && ValidRefs(qs', s'.qualities)
      && SumResults(Dcs(ev, qs', s'.qualities))
         == (var a :- SumResults(Dcs(ev, qs, s.qualities)); var b :- Dc(ev, qs'[qi]); Ok(a + b))
  {
    var (qs', s') := AddQuality(qs, s, qi, value);
    assert Dcs(ev, qs', s.qualities) == Dcs(ev, qs, s.qualities);
    GatherSnocSum((q: Quality) => Dc(ev, q), qs', s.qualities, qi);
  }

  /** Adding a quality the spell may already hold: the copies it holds follow
      the overwritten `x`, and the new reference adds the updated `dc` once more. */
  lemma AddHeldQualityDc(ev: Evaluator, qs: seq<Quality>, s: Spell, qi: nat, value: Option<int>, before: int, after: int)
    requires qi < |qs| && ValidRefs(qs, s.qualities)
    requires SumResults(Dcs(ev, qs, s.qualities)).Ok?
    requires Dc(ev, qs[qi]) == Ok(before) && Dc(ev, AddQuality(qs, s, qi, value).0[qi]) == Ok(after)
    ensures var (qs', s') := AddQuality(qs, s, qi, value);
      && ValidRefs(qs', s'.qualities)
      && SumResults(Dcs(ev, qs', s'.qualities))
         == Ok(SumResults(Dcs(ev, qs, s.qualities)).value + Occurrences(s.qualities, qi) * (after - before) + after)
  {
    var (qs', s') := AddQuality(qs, s, qi, value);
    SharedQualityShift(ev, qs, s, s, qi, value, before, after);
    GatherSnocSum((q: Quality) => Dc(ev, q), qs', s.qualities, qi);
  }

  /** Overwriting `x` of a shared quality moves the `dc` of every spell that
      holds it, by the quality's change in `dc` once per time it is held. */
  lemma SharedQualityShift(ev: Evaluator, qs: seq<Quality>, s: Spell, t: Spell, qi: nat, value: Option<int>, before: int, after: int)
    requires qi < |qs| && ValidRefs(qs, t.qualities)
    requires SumResults(Dcs(ev, qs, t.qualities)).Ok?
    requires Dc(ev, qs[qi]) == Ok(before) && Dc(ev, AddQuality(qs, s, qi, value).0[qi]) == Ok(after)
    ensures ValidRefs(AddQuality(qs, s, qi, value).0, t.qualities)
    ensures SumResults(Dcs(ev, AddQuality(qs, s, qi, value).0, t.qualities)) ==
      Ok(SumResults(Dcs(ev, qs, t.qualities)).value + Occurrences(t.qualities, qi) * (after - before))
  {
    GatherReplaceShift((q: Quality) => Dc(ev, q), qs, AddQuality(qs, s, qi, value).0, t.qualities, qi, before, after);
  }

  /** `get_qualities(name, category)`: by name when `name` is truthy, else by
      category when `category` is truthy, else all of the spell's qualities. */
  function GetQualities(qs: seq<Quality>, s: Spell, name: Option<string>, category: Option<string>): (r: seq<nat>)
    ensures !TruthyStr(name) && !TruthyStr(category) ==> r == s.qualities
    ensures TruthyStr(name) ==> forall k | 0 <= k < |r| :: r[k] < |qs| && qs[r[k]].name == name.value
    ensures !TruthyStr(name) && TruthyStr(category) ==>
      forall k | 0 <= k < |r| :: r[k] < |qs| && qs[r[k]].catagory == category
    ensures forall k | 0 <= k < |r| :: r[k] in s.qualities
  {
    if TruthyStr(name) then
      FilterMembers(s.qualities, Named(qs, name.value));
      Filter(s.qualities, Named(qs, name.value))
    else if TruthyStr(category) then
      FilterMembers(s.qualities, Categorized(qs, category.value));
      Filter(s.qualities, Categorized(qs, category.value))
    else s.qualities
  }

  /** A reference to a quality called `name`. */
  function Named(qs: seq<Quality>, name: string): nat -> bool {
    (i: nat) => i < |qs| && qs[i].name == name
  }

  /** A reference to a quality of category `key`. */
  function Categorized(qs: seq<Quality>, key: string): nat -> bool {
    (i: nat) => i < |qs| && qs[i].catagory == Some(key)
  }

  /** The spell's qualities a query selects. */
  predicate Selected(qs: seq<Quality>, i: nat, name: Option<string>, category: Option<string>) {
    if TruthyStr(name) then Named(qs, name.value)(i)
    else if TruthyStr(category) then Categorized(qs, category.value)(i)
    else true
  }

  /** Every result of a query is a selected quality of the spell and every
      selected quality of the spell is a result. */
  lemma GetQualitiesComplete(qs: seq<Quality>, s: Spell, name: Option<string>, category: Option<string>)
    requires ValidRefs(qs, s.qualities)
    ensures forall k | 0 <= k < |GetQualities(qs, s, name, category)| ::
      Selected(qs, GetQualities(qs, s, name, category)[k], name, category)
    ensures forall k | 0 <= k < |s.qualities| && Selected(qs, s.qualities[k], name, category) ::
      s.qualities[k] in GetQualities(qs, s, name, category)
  {
    if TruthyStr(name) {
      FilterMembers(s.qualities, Named(qs, name.value));
    } else if TruthyStr(category) {
      FilterMembers(s.qualities, Categorized(qs, category.value));
    }
  }

  /** After `add_quality`, a query returns what it returned before, followed by
      the added quality when the query selects it. */
  lemma GetAfterAdd(qs: seq<Quality>, s: Spell, qi: nat, value: Option<int>, name: Option<string>, category: Option<string>)
    requires qi < |qs|
    ensures var (qs', s') := AddQuality(qs, s, qi, value);
      GetQualities(qs', s', name, category)
      == GetQualities(qs, s, name, category) + (if Selected(qs, qi, name, category) then [qi] else [])
  {
    var (qs', s') := AddQuality(qs, s, qi, value);
    if TruthyStr(name) {
      FilterAgree(s.qualities, Named(qs, name.value), Named(qs', name.value));
      FilterConcat(s.qualities, [qi], Named(qs', name.value));
    } else if TruthyStr(category) {
      FilterAgree(s.qualities, Categorized(qs, category.value), Categorized(qs', category.value));
      FilterConcat(s.qualities, [qi], Categorized(qs', category.value));
    }
  }
}

=== FILE: spellbook.dfy ===
/**
  `SpellBook` of the component revisions (kbr_char/magic.py and
  kbr_char/green.py): a named list of spells, unique by name on insertion,
  with removal only of a uniquely named spell and first-match retrieval.
  kbr_char/magic.py also lets a spellbook load its own component collection.
 */
module SpellBooks {
  import opened Py
  import opened Components

  /** A spellbook. `components` is the collection kbr_char/magic.py's
      `load_components` attaches; kbr_char/green.py has no such attribute,
      and it stays None there. */
  datatype SpellBook = SpellBook(name: string, spells: seq<Spell>, components: Option<Catalog>)

  /** A new spellbook: no spells, no collection. */
  function NewBook(name: string): SpellBook {
    SpellBook(name, [], None)
  }

  /** `spell_list()`: the spell names in insertion order. */
  function SpellList(b: SpellBook): (r: seq<string>)
    ensures |r| == |b.spells|
    ensures forall k | 0 <= k < |r| :: r[k] == b.spells[k].name
  {
    seq(|b.spells|, k requires 0 <= k < |b.spells| => b.spells[k].name)
  }

  /** No two spells share a name. */
  predicate UniqueNames(names: seq<string>) {
    forall i, j | 0 <= i < j < |names| :: names[i] != names[j]
  }

  /** `add_spell(spell)`: ValueError when the name is already listed, leaving the
      book as it was; otherwise the spell goes at the end. */
  function AddSpell(b: SpellBook, s: Spell): (r: Result<SpellBook>)
    ensures r.Err? <==> s.name in SpellList(b)
    ensures r.Err? ==> r.error == ValueError
    ensures r.Ok? ==> r.value.spells == b.spells + [s]
    ensures r.Ok? ==> r.value.name == b.name && r.value.components == b.components
  {
    if s.name in SpellList(b) then Err(ValueError) else Ok(b.(spells := b.spells + [s]))
  }

  /** The positions of the spells named `name`. */
  function Named(b: SpellBook, name: string): (r: seq<nat>)
    ensures forall k | 0 <= k < |r| :: r[k] < |b.spells| && b.spells[r[k]].name == name
    ensures forall i | 0 <= i < |b.spells| && b.spells[i].name == name :: i in r
    ensures forall p, q | 0 <= p < q < |r| :: r[p] < r[q]
  {
    IndicesWhere(b.spells, (s: Spell) => s.name == name)
  }

  /** `remove_spell(name)`: pops the spell only when exactly one spell carries
      the name; with none or several it changes nothing. */
  function RemoveSpell(b: SpellBook, name: string): (r: SpellBook)
    ensures r.name == b.name && r.components == b.components
    ensures |Named(b, name)| != 1 ==> r == b
    ensures |Named(b, name)| == 1 ==>
      var k := Named(b, name)[0];
      && b.spells[k].name == name
      && r.spells == b.spells[..k] + b.spells[k + 1..]
      && forall j | 0 <= j < |b.spells| && j != k :: b.spells[j].name != name
  {
    var hits := Named(b, name);
    if |hits| == 1 then
      var k := hits[0];
      b.(spells := b.spells[..k] + b.spells[k + 1..])
    else b
  }

  /** `get_spell(name)`: the first spell with that name, or IndexError. */
  function GetSpell(b: SpellBook, name: string): (r: Result<Spell>)
    ensures r.Err? <==> name !in SpellList(b)
    ensures r.Err? ==> r.error == IndexError
    ensures r.Ok? ==> exists k | 0 <= k < |b.spells| ::
      && b.spells[k] == r.value
      && r.value.name == name
      && forall j | 0 <= j < k :: b.spells[j].name != name
  {
    match FirstWhere(b.spells, (s: Spell) => s.name == name)
    case None => Err(IndexError)
    case Some(i) => Ok(b.spells[i])
  }

  /** kbr_char/magic.py `load_components(data)`: builds a collection (with the
      appending loops) and attaches it. */
  method LoadComponents(b: SpellBook, data: Data) returns (r: Result<SpellBook>)
    ensures r.Ok? <==> Loadable(data)
    ensures r.Ok? ==> r.value == b.(components := Some(Build(data).value))
    ensures r.Err? ==> r.error == Build(data).error
  {
    var built := BuildByAppending(data, []);
    if built.Err? {
      return Err(built.error);
    }
    assert [] + Build(data).value == Build(data).value;
    return Ok(b.(components := Some(built.value)));
  }

  // ---------------------------------------------------------------------------
  // Properties

  /** Adding keeps names unique. */
  lemma AddSpellKeepsNamesUnique(b: SpellBook, s: Spell)
    requires UniqueNames(SpellList(b))
    requires AddSpell(b, s).Ok?
    ensures UniqueNames(SpellList(AddSpell(b, s).value))
  {
    var names := SpellList(AddSpell(b, s).value);
    assert names == SpellList(b) + [s.name];
  }

  /** `add_spell` for each spell in turn, stopping at the first ValueError. */
  function AddSpells(b: SpellBook, ss: seq<Spell>): Result<SpellBook>
    decreases |ss|
  {
    if |ss| == 0 then Ok(b)
    else
      var b' :- AddSpell(b, ss[0]);
      AddSpells(b', ss[1..])
  }

  function Names(ss: seq<Spell>): (r: seq<string>)
    ensures |r| == |ss|
    ensures forall k | 0 <= k < |ss| :: r[k] == ss[k].name
  {
    seq(|ss|, k requires 0 <= k < |ss| => ss[k].name)
  }

  /** Adding spells in turn succeeds exactly when all the names, old and new, are
      distinct, and then the book holds the old spells followed by the new ones. */
  lemma {:induction false} AddSpellsSucceedIffDistinct(b: SpellBook, ss: seq<Spell>)
    requires UniqueNames(SpellList(b))
    ensures AddSpells(b, ss).Ok? <==> UniqueNames(SpellList(b) + Names(ss))
    ensures AddSpells(b, ss).Ok? ==> AddSpells(b, ss).value.spells == b.spells + ss
    decreases |ss|
  {
    if |ss| > 0 {
      if ss[0].name in SpellList(b) {
        RepeatedHead(SpellList(b), Names(ss));
      } else {
        AddSpellKeepsNamesUnique(b, ss[0]);
        AddSpellsSucceedIffDistinct(AddSpell(b, ss[0]).value, ss[1..]);
        AddHead(b, ss);
      }
    }
  }

  /** Adding the first spell moves it from the pending spells to the book. */
  lemma AddHead(b: SpellBook, ss: seq<Spell>)
    requires |ss| > 0 && ss[0].name !in SpellList(b)
    ensures SpellList(AddSpell(b, ss[0]).value) + Names(ss[1..]) == SpellList(b) + Names(ss)
    ensures AddSpell(b, ss[0]).value.spells + ss[1..] == b.spells + ss
  {
    AddHeadNames(SpellList(b), SpellList(AddSpell(b, ss[0]).value), ss);
    ConsAppend(b.spells, ss);
  }

  /** The same step on the names alone. */
  lemma AddHeadNames(front: seq<string>, front': seq<string>, ss: seq<Spell>)
    requires |ss| > 0 && front' == front + [ss[0].name]
    ensures front' + Names(ss[1..]) == front + Names(ss)
  {
    NamesTail(ss);
    ConsAppend(front, Names(ss));
  }

  /** The names of the remaining spells are the remaining names. */
  lemma NamesTail(ss: seq<Spell>)
    requires |ss| > 0
    ensures Names(ss)[1..] == Names(ss[1..])
  {
  }

  /** Moving the head of `b` to the end of `a` keeps the concatenation. */
  lemma ConsAppend<T>(a: seq<T>, b: seq<T>)
    requires |b| > 0
    ensures (a + [b[0]]) + b[1..] == a + b
  {
  }

  /** A list whose next name is already present is not unique. */
  lemma RepeatedHead(names: seq<string>, more: seq<string>)
    requires |more| > 0 && more[0] in names
    ensures !UniqueNames(names + more)
  {
    var i :| 0 <= i < |names| && names[i] == more[0];
    var all := names + more;
    assert all[i] == all[|names|];
  }

  /** From an empty book: adding succeeds exactly when the names are distinct,
      and the resulting book never holds two spells of one name. */
  lemma FromEmptyBook(name: string, ss: seq<Spell>)
    ensures AddSpells(NewBook(name), ss).Ok? <==> UniqueNames(Names(ss))
    ensures AddSpells(NewBook(name), ss).Ok? ==> UniqueNames(SpellList(AddSpells(NewBook(name), ss).value))
  {
    AddSpellsSucceedIffDistinct(NewBook(name), ss);
    assert SpellList(NewBook(name)) + Names(ss) == Names(ss);
    if AddSpells(NewBook(name), ss).Ok? {
      assert SpellList(AddSpells(NewBook(name), ss).value) == Names(ss);
    }
  }

  /** The first two entries of a strictly increasing sequence differ. */
  lemma IncreasingHeads(r: seq<nat>)
    requires forall p, q | 0 <= p < q < |r| :: r[p] < r[q]
    ensures |r| >= 2 ==> r[0] < r[1]
  {
  }

  /** Removing a spell just added under a fresh name gives the book back. */
  lemma RemoveUndoesAdd(b: SpellBook, s: Spell)
    requires s.name !in SpellList(b)
    ensures RemoveSpell(AddSpell(b, s).value, s.name) == b
  {
    var b' := AddSpell(b, s).value;
    var n := |b.spells|;
    assert b'.spells[n] == s;
    var hits := Named(b', s.name);
    assert n in hits;
    assert forall i | 0 <= i < n :: SpellList(b)[i] != s.name;
    assert forall k | 0 <= k < |hits| :: hits[k] == n;
    IncreasingHeads(hits);
    assert b'.spells[..n] == b.spells;
  }

  /** A spell just added under a fresh name is what `get_spell` finds. */
  lemma GetFindsAdded(b: SpellBook, s: Spell)
    requires s.name !in SpellList(b)
    ensures GetSpell(AddSpell(b, s).value, s.name) == Ok(s)
  {
    var b' := AddSpell(b, s).value;
    var r := GetSpell(b', s.name);
    assert SpellList(b')[|b.spells|] == s.name;
    assert forall i | 0 <= i < |b.spells| :: SpellList(b)[i] != s.name;
  }

  /** The test sequence: adding a spell twice raises ValueError and leaves the
      book unchanged; adding it once and removing it by name empties the book. */
  lemma DuplicateAndRemoveExample(book: string, s: Spell)
    ensures AddSpell(NewBook(book), s).Ok?
    ensures AddSpell(AddSpell(NewBook(book), s).value, s) == Err(ValueError)
    ensures SpellList(RemoveSpell(AddSpell(NewBook(book), s).value, s.name)) == []
  {
    RemoveUndoesAdd(NewBook(book), s);
  }
}
